=== FILE: README.md ===
# relicta-action in Dafny

A functional model of the decision logic in the relicta-action GitHub Action.
The action installs the `relicta` release tool, and optionally its plugins,
from GitHub releases. It then drives the tool through a release workflow and
publishes what the tool reports as step outputs. The model covers three source
files:

- `src/installer.ts`:
  - platform detection;
  - release-asset names and URLs for the main tool and for plugins;
  - the checksum manifest lookup, and the two verification policies (strict
    for plugins, advisory for the main tool);
  - locating a binary in an extracted archive;
  - the control flow of `installRelicta`, `downloadPlugin` and
    `installPlugins`.
- `src/runner.ts`:
  - the common arguments and the environment given to the tool;
  - the argument vectors each command expands to;
  - the exit-code rule of `executeCommand` and the stop at the first failing
    step;
  - `parsePublishOutput`.
- `src/main.ts`: reading and defaulting the inputs, the token check made
  before anything is installed, the directory put on `PATH`, and the
  conditional writing of step outputs.

Anything that touches the outside world is a parameter:
- the tool cache, downloads, reading a file as text, the SHA-256 digest, and
  the tar and zip extractors are oracle fields of `Installer.Host`;
- the processes the runner starts are an oracle from (step index, invocation)
  to exit status and standard output;
- the install call made by `run` is an oracle from version to binary path;
- JavaScript's full-Unicode `toLowerCase`, used when `findPluginBinary`
  compares file names, is an oracle field of `Installer.Host`.

An extracted archive is an immutable tree of named entries. A directory
listing keeps its order.

Modules, in dependency order:

| module | file | models |
|---|---|---|
| `Wrappers` | wrappers.dfy | `Option` and `Result` |
| `Text` | text.dfy | JavaScript string operations: `trim`, `split(c)`, `split(/\s+/)`, ASCII `toLowerCase`, `startsWith`/`endsWith`/`includes` |
| `Seqs` | seqs.dfy | the first element of a sequence that satisfies a predicate (`for … of` with `break`) |
| `Platform` | platform.dfy | `detectPlatform` |
| `Artifacts` | artifacts.dfy | `getDownloadInfo`, `getPluginUrl`, `getPluginChecksumUrl`, the plugin archive and install names |
| `Checksums` | checksums.dfy | the manifest loop, `verifyChecksum` and `verifyPluginChecksum` |
| `Layout` | layout.dfy | `findBinary` and `findPluginBinary` over a directory tree |
| `Installer` | installer.dfy | `installRelicta`, `downloadPlugin` and `installPlugins` |
| `Scraper` | scraper.dfy | `parsePublishOutput`, as three leftmost-match scanners |
| `Runner` | runner.dfy | `runReleasePilot` and `executeCommand` |
| `Action` | action.dfy | `run` in src/main.ts |

Two behaviours of the code are worth stating up front:
- Only plugins are blocked by a checksum mismatch. `verifyChecksum` catches
  its own mismatch error and only warns, so a main archive whose digest
  differs from the manifest is still installed (see
  `Installer.InstallIgnoresChecksum`).
- A command that is not one of the known workflow steps is split on the
  single character `' '`, not on white space in general. Two spaces in a row
  therefore give an empty argument (see `Runner.PassthroughKeepsEmptyArgs`).

## Model

| member | source | states |
|---|---|---|
| Platform.DetectPlatform | src/installer.ts:217-245 | succeeds exactly for `darwin`/`linux`/`win32` with `x64`/`arm64`; a success maps back to the host strings; an unsupported OS is reported even when the CPU is unsupported too, and the CPU is reported only for a supported OS |
| Platform.DetectHostIds | src/installer.ts:225-244 | every platform is detected from its own Node.js identifiers, so detection is a bijection onto the six platforms |
| Platform.NamesInjective | src/installer.ts:225-243 | the release tool's OS and CPU names determine the platform |
| Artifacts.AssetDirRouting | src/installer.ts:251-263 | a release URL goes through `/releases/latest/download/` if and only if the version is exactly `latest`, and is then exactly that directory followed by the file name; otherwise it is exactly `/releases/download/<version>/<file>` with the version verbatim |
| Artifacts.MainFileNameShape | src/installer.ts:248-249 | the archive name is `relicta_<os>_<arch>.`; it ends in `.zip` if and only if the OS is Windows and in `.tar.gz` otherwise; it holds no `/` |
| Artifacts.GetDownloadInfo | src/installer.ts:247-266 | the archive URL is exactly `https://github.com/relicta-tech/relicta/releases/latest/download/<filename>` for `latest` and `…/releases/download/<version>/<filename>` otherwise; the checksum URL is the same with `checksums.txt`; the filename is `relicta_<os>_<arch>.<ext>` |
| Artifacts.DownloadUrlInjective | src/installer.ts:247-256 | two (version, platform) pairs with the same archive URL are equal |
| Artifacts.PluginOsName | src/installer.ts:118 | the lower-cased OS names are `darwin`, `linux` and `windows` |
| Artifacts.PluginArchiveName | src/installer.ts:117-121 | a plugin archive is exactly `<name>_<lower-case os>_<arch>.` followed by `zip` on Windows and `tar.gz` elsewhere, with nothing in between (its length is pinned) |
| Artifacts.PluginArchiveRoundTrip | src/installer.ts:117-121 | the plugin name is recovered from its archive name, so two plugins of one platform never fetch the same asset |
| Artifacts.InstalledPluginName | src/installer.ts:147-148 | the installed plugin file is `relicta-<name>` followed by `.exe` on Windows and nothing elsewhere |
| Artifacts.InstalledPluginRoundTrip | src/installer.ts:147-148 | the plugin name can be recovered from the installed file name, so distinct plugin names give distinct file names; on a case-sensitive file system two plugins never overwrite each other |
| Artifacts.PluginUrlRouting | src/installer.ts:159-173 | plugin archive and manifest URLs are exactly `…/plugin-<name>/releases/latest/download/<file>` for `latest` and `…/plugin-<name>/releases/download/<version>/<file>` otherwise; they share one release directory |
| Checksums.ExpectedDigest | src/installer.ts:281-290 | there is no digest exactly when no line has at least two white-space-separated fields with the file name second; a digest found is non-empty and has no white space |
| Checksums.ExpectedIsFirstListing | src/installer.ts:284-290 | the digest is the first field of the first listing line; later lines are ignored |
| Checksums.LineFields | src/installer.ts:285 | a manifest line `<digest>  <filename>` splits into exactly those two fields |
| Checksums.ListedLineDecides | src/installer.ts:284-290 | a manifest whose first line lists the file gives that line's digest, whatever follows |
| Checksums.Attempt | src/installer.ts:277-306 | a fetch failure, a missing listing, a match and a mismatch are mutually exclusive; each happens exactly under its condition on the manifest and the digest; a mismatch carries both digests |
| Checksums.VerifyChecksum | src/installer.ts:268-313 | the main tool's verifier never fails; it passes exactly when the listed digest equals the archive's |
| Checksums.VerifyPluginChecksum | src/installer.ts:175-215 | the plugin verifier passes exactly on a match; it fails exactly on a listed digest that differs, or on a fetch error whose message contains `Checksum mismatch`; anything else is a warning |
| Checksums.MismatchMessageRethrown | src/installer.ts:204-212 | the thrown mismatch error is recognised by the rethrow test |
| Checksums.PoliciesDifferOnlyInFatality | src/installer.ts:204-214 | the two policies give the same verdict except where the plugin policy is fatal; there the main policy warns |
| Checksums.ListedDigestDecides | src/installer.ts:300-306 | once the manifest lists a digest, comparison is exact string equality: the same digest passes both verifiers; any other fails the plugin verifier and warns in the main one |
| Checksums.EmptyManifestNotListed | src/installer.ts:292-295 | an empty manifest lists nothing, and both verifiers skip with a warning |
| Checksums.VerificationScenarios | src/installer.ts:292-306 | with a concrete manifest line: a matching digest passes, a wrong digest is fatal for plugins and a warning for the main tool, and an empty manifest skips both |
| Layout.FindBinary | src/installer.ts:315-334 | the root binary is returned exactly when it exists; otherwise the result is the first directory in listing order whose name starts with `relicta` and that holds the binary; nothing is found exactly when neither exists; the path resolves in the tree and ends with the binary name |
| Layout.FindPluginBinary | src/installer.ts:336-370 | the root `<plugin><ext>` comes first; otherwise the result is the first entry in listing order that is a file whose name, lower-cased by the given case mapping, equals the lower-cased plugin or binary name, or a directory of any name holding the exact binary; nothing is found exactly when there is no such entry; the path resolves in the tree |
| Installer.ExtractArchive | src/installer.ts:43-50 | `.tar.gz` is untarred, otherwise `.zip` is unzipped, and any other suffix is an unsupported-format error |
| Installer.MainArchiveAlwaysSupported | src/installer.ts:44-50 | the main archive is untarred off Windows and unzipped on Windows; the unsupported-format branch is unreachable |
| Installer.InstallFresh | src/installer.ts:27-73 | a fresh install succeeds exactly when the archive downloads, extracts and `findBinary` locates the binary in it, whatever the checksum verdict; the path returned is that binary; a download or extraction error is passed on unchanged |
| Installer.InstallRelicta | src/installer.ts:11-74 | an unsupported host always fails; a cached tree is used exactly when it holds the binary, and the path is the one found there; otherwise the result is that of a fresh download |
| Installer.InstallIgnoresChecksum | src/installer.ts:39-40 | neither the manifest contents, nor whether the manifest downloads at all, nor the archive digest can change the result of `installRelicta` |
| Installer.FreshIgnoresChecksum | src/installer.ts:31-74 | two hosts that download the same archive and extract alike install the same binary, whatever they do with the manifest and the digest |
| Installer.ArchiveUrlIsNotManifest | src/installer.ts:247-266 | the main archive's URL never ends in `/checksums.txt`, so replacing the manifest download leaves the archive download alone |
| Installer.DownloadPlugin | src/installer.ts:111-157 | a plugin installs exactly when its archive downloads, the plugin verifier is not fatal, the archive extracts (unzipped exactly on Windows) and `findPluginBinary` locates the binary; it installs as `relicta-<name>[.exe]`; a download error, a fatal verdict or an extraction error is passed on unchanged |
| Installer.UnverifiedPluginStillInstalls | src/installer.ts:195-198 | a plugin that its manifest does not list, or whose manifest cannot be fetched for a reason other than a mismatch, is still installed once it extracts and holds its binary |
| Installer.PluginMismatchNotInstalled | src/installer.ts:126-129 | a plugin whose manifest lists a different digest is not installed |
| Installer.InstallEach | src/installer.ts:99-106 | every plugin gets a report, in list order, and it is exactly that plugin's own download outcome |
| Installer.InstallPlugins | src/installer.ts:80-109 | an empty list does nothing; the call fails exactly when the list is non-empty and the host is unsupported; otherwise there is one report per plugin, in order, and report `i` carries exactly the outcome of `downloadPlugin` for plugin `i` on the detected platform |
| Installer.PluginIsolation | src/installer.ts:100-106 | a plugin's outcome does not depend on the plugins listed before or after it |
| Installer.MiddlePluginFails | src/installer.ts:100-106 | with three plugins where the second cannot be downloaded, the first and third are still installed and the call succeeds |
| Scraper.FirstMatch | src/runner.ts:181-192 | the capture is taken at the leftmost position where the pattern matches; there is no capture exactly when it matches nowhere |
| Scraper.AfterKeyFinds | src/runner.ts:181 | an alternation of keys matches at a position exactly when one of its branches occurs there, and it ends just after such a branch |
| Scraper.SemVerShape | src/runner.ts:181 | what the version scanner delimits is digits, a dot, digits, a dot, digits |
| Scraper.ScrapeVersion | src/runner.ts:181 | a captured version has the shape `\d+.\d+.\d+` and occurs in the output; it comes from the leftmost match |
| Scraper.ScrapeUrl | src/runner.ts:187 | a captured URL starts with `https://github.com/` (up to ASCII case), is longer than that prefix, has no white space, occurs in the output, and comes from the leftmost match |
| Scraper.ScrapeId | src/runner.ts:192 | a captured release id is a non-empty digit string that occurs in the output; it comes from the leftmost match |
| Scraper.ParsePublishOutput | src/runner.ts:172-196 | version and tag are set together, and the tag is `v` followed by the version; each field is unset exactly when its pattern matches nowhere; each value set has its pattern's shape and occurs in the output |
| Scraper.VersionRoundTrip | src/runner.ts:181-185 | output starting `Tag: v<a>.<b>.<c>` yields version `<a>.<b>.<c>` and tag `v<a>.<b>.<c>` |
| Scraper.UrlRoundTrip | src/runner.ts:187-190 | output starting `Release URL: https://github.com/<path>` yields exactly that URL |
| Scraper.IdRoundTrip | src/runner.ts:192-195 | output starting `Release ID: <digits>` yields exactly those digits |
| Runner.CommonArgs | src/runner.ts:27-45 | the `--config` path is the temporary file when inline content is non-empty, else the configured path if set, else absent; `--dry-run` is last exactly in a dry run; no `--config` appears without a configuration |
| Runner.CommonArgsDecode | src/runner.ts:29-45 | reading the common arguments back gives exactly the chosen configuration path and the dry-run flag |
| Runner.Environment | src/runner.ts:17-24 | the token is set; `RELEASE_PILOT_DRY_RUN=true` is added only in a dry run; every other inherited variable keeps its value and no other variable appears |
| Runner.EnvironmentOutsideDryRun | src/runner.ts:22-24 | outside a dry run only `GITHUB_TOKEN` differs from the inherited environment |
| Runner.FullApprove | src/runner.ts:55-64 | the approve step of `full` starts with `approve` and ends with the common arguments |
| Runner.StandaloneApprove | src/runner.ts:95-101 | the standalone approve step starts with `approve` and ends with the common arguments |
| Runner.FullPlan | src/runner.ts:49-76 | `full` has five steps, named plan, bump, notes, approve and publish in order, each ending with the common arguments; the last is scraped |
| Runner.SinglePlan | src/runner.ts:78-93 | a single-step command runs once under its own spelling; it is scraped exactly when spelled `publish` |
| Runner.PassthroughPlan | src/runner.ts:104-114 | a passthrough command is one step ending with the common arguments, never scraped |
| Runner.Schedule | src/runner.ts:48-115 | every command runs one to five steps, each ending with the common arguments |
| Runner.ScrapeOnlyFullOrPublish | src/runner.ts:48-91 | outputs are scraped exactly for `full` in any case and for the exact spelling `publish` |
| Runner.FullSteps | src/runner.ts:49-71 | `full` runs exactly `plan`, `bump`, `notes`, `approve [--yes]`, `publish`, each followed by the common arguments, with `--yes` only under auto-approve |
| Runner.ApproveSteps | src/runner.ts:95-101 | the standalone `approve` runs `approve [--yes]` followed by the common arguments, once, unscraped |
| Runner.ApproveStepsAgree | src/runner.ts:55-101 | the approve step of `full` and the standalone `approve` run the same argument vector |
| Runner.SingleStepKeepsCase | src/runner.ts:78-87 | `plan`, `bump`, `notes` and `publish` in any case are dispatched as one step whose first argument is the command as written |
| Runner.UpperCasePublishNotScraped | src/runner.ts:84-91 | `PUBLISH` runs the publish step under that spelling but is not scraped |
| Runner.PassthroughRoundTrip | src/runner.ts:104-114 | the arguments of a passthrough command rejoined with spaces give back the command; nothing is scraped |
| Runner.PassthroughKeepsEmptyArgs | src/runner.ts:106 | `deploy  now` passes three arguments: `deploy`, an empty one, and `now` |
| Runner.ExecuteCommand | src/runner.ts:131-170 | a step succeeds exactly when it exits with 0, and then yields its standard output; a non-zero exit is an error carrying that code |
| Runner.RunFrom | src/runner.ts:49-76 | steps start in order with the same binary, environment and directory; every step before the last one started succeeded; an error is the last started step's own error; success means every step ran |
| Runner.RunSteps | src/runner.ts:49-76 | the run stops at the first failing step and reports its error; a successful run started every step and gives the last step's output |
| Runner.FirstFailureStops | src/runner.ts:158-162 | when step `k` fails after every earlier step succeeded, exactly `k + 1` steps were started and the result is step `k`'s error |
| Runner.AllStepsSucceed | src/runner.ts:51-74 | when every step exits with 0, every step is started and the run succeeds |
| Runner.Gather | src/runner.ts:66-92 | a failed run has no outputs and keeps the failing step's error; a successful run has the scraped last output when scraping, and no outputs otherwise |
| Runner.RunPlan | src/runner.ts:49-92 | the k-th process started runs exactly the k-th step of the plan with the given binary, environment and directory; a failure is the last started process's error; a success started every step, each exiting with 0, and sets no outputs unless the plan scrapes |
| Runner.PlanScrapesLastStep | src/runner.ts:66-92 | a successful run of a scraping plan sets exactly what the scraper finds in the last started step's standard output |
| Runner.RunReleasePilot | src/runner.ts:8-117 | the k-th process started runs exactly the k-th argument vector of the command's schedule; a success means every scheduled step started; at most five processes start, all with the given binary, working directory and computed environment; a failure is the last started process's error; a success means every started process exited with 0, and no outputs are set unless the command is scraped |
| Runner.RunnerArgs | src/runner.ts:26-115 | every process started ends its arguments with the common arguments |
| Runner.ScrapedStepIsPublish | src/runner.ts:66-90 | a scraped schedule ends with a `publish` step |
| Runner.OutputsOnlyFromPublish | src/runner.ts:66-90 | any output comes from the standard output of the last step of a successful run, and that step is `publish` |
| Runner.FullStopsAtFailure | src/runner.ts:49-76 | in `full`, a failing step is the last started; the steps after it never start, and nothing is scraped |
| Runner.FullSuccessScrapesPublish | src/runner.ts:49-76 | a `full` run whose five steps all exit with 0 starts the five steps in order and scrapes the standard output of `publish` |
| Action.InputTrimmed | src/main.ts:10-16 | an input value never starts or ends with white space |
| Action.GetBooleanInput | src/main.ts:14-15 | a boolean input is true exactly for `true`/`True`/`TRUE` and false exactly for `false`/`False`/`FALSE`; anything else is an error naming the input |
| Action.AbsentBooleanRejected | src/main.ts:14-15 | a boolean input that was not supplied is an error, not `false` |
| Action.ResolveInputs | src/main.ts:9-17 | an empty `version`, `command` or `working-directory` becomes `latest`, `full` or `.`; the token is the input if non-empty, else `GITHUB_TOKEN` if non-empty, else empty; `config` is set exactly when non-empty; reading fails exactly when a boolean input is malformed, `auto-approve` first; inline configuration and plugins are never read |
| Action.PathDir | src/main.ts:36 | the directory is a prefix of the path; when the path changes, exactly a `/` and a non-empty slash-free last segment were removed; otherwise the path is empty, ends in `/`, or has no `/` |
| Action.PathDirOfJoin | src/main.ts:36 | the directory of `<dir>/<name>` is `<dir>` |
| Action.AddPath | src/main.ts:36 | adding a directory puts it and the path delimiter in front of `PATH`, creating `PATH` if it was unset, and changes no other variable |
| Action.Put | src/main.ts:42-45 | writing one output adds at most one entry and never an empty value |
| Action.WrittenPut | src/main.ts:42-60 | writing an output changes what is written for that name only, and only when its field is present and non-empty |
| Action.SetOutputs | src/main.ts:41-60 | each of `version`, `release-url`, `tag-name` and `release-id` is written exactly when its field is present and non-empty, with that value; no empty value is written |
| Action.VersionAndTagWrittenTogether | src/main.ts:42-55 | after a publish, `version` and `tag-name` are written together, and the tag is `v` followed by the version |
| Action.Run | src/main.ts:6-70 | the installer is asked for anything only when the inputs read and the token is non-empty; otherwise nothing is installed, run or written and the run fails, with `MissingToken` for an empty token |
| Action.Launch | src/main.ts:31-69 | the installer is asked for the input version once; the `PATH` directory is added exactly when the install succeeded, and it is the installed path's directory; an install error is the failure, and then nothing runs; otherwise the processes are exactly those the runner starts under the inherited environment with that directory prepended to `PATH`; the runner's error becomes the failure, and on success its outputs are written |
| Action.ToolSeesInstallDir | src/main.ts:36-39 | every process the action starts has the installed tool's directory first on its `PATH`, ahead of the inherited value |
| Action.LaunchOutputsFromPublish | src/main.ts:39-60 | outputs are written only from the standard output of a `publish` step that ends a successful run, and they are exactly what the scraper finds there |
| Action.MissingTokenFailsBeforeInstall | src/main.ts:19-32 | with no token from the input or the environment, the run fails with `MissingToken` before the installer or the tool is called |

## Left out

- Network and tool-cache lookups (`tc.find`, `tc.downloadTool`, `tc.extractTar`, `tc.extractZip`) are oracles. So are file reads, the SHA-256 digest and `exec.exec`, and only their results are modelled.
- Installer.InstallRelicta: assumes that `chmod +x` (src/installer.ts:66) and `tc.cacheDir` (src/installer.ts:70) succeed. Both are awaited outside any `try`, so their failure would make `installRelicta` fail where the model succeeds.
- Installer.InstallFresh: assumes that `chmod +x` and `tc.cacheDir` succeed, as for `Installer.InstallRelicta`.
- Installer.InstallPlugins: assumes that creating the plugins directory (src/installer.ts:95-97) succeeds. It runs outside the loop's `try`, so its failure would escape `installPlugins` on a supported host.
- Installer.DownloadPlugin: assumes that copying the binary into the plugins directory and `chmod +x` (src/installer.ts:149-154) succeed. A failure there would turn an otherwise found plugin into a warning. The result names the target file and the source path instead of copying.
- The temporary file for inline configuration, and its removal in `finally` (src/runner.ts:118-128), are left out. Its path is the parameter `tempPath`, because the real name comes from the clock.
- Logging (`core.info`, `core.warning`, `core.debug`, groups), including the warnings logged for caught plugin and checksum errors, is left out. The model keeps the caught error in the per-plugin report or the `Warned` verdict.
- Streaming of standard output and standard error is left out. A step is its exit status and its whole standard output.
- The SHA-256 hash itself is left out: a digest is an opaque function of the archive bytes.
- `installRelicta` detects the platform a second time when the cached tree does not hold the binary and it falls through to a fresh install. The model detects it once, first. Detection is deterministic, so the outcome is the same.
- src/main.ts:3 imports `installReleasePilot`, which src/installer.ts does not export. The install call in `run` is therefore an oracle, not `Installer.InstallRelicta`.
- `run` never reads the `config-content` or `plugins` inputs and never calls `installPlugins`. The model reflects this: `Action.ResolveInputs` always gives no inline content and no plugins.
- How `@actions/core` turns an input name into an environment variable is left out. Inputs are a map from input name to raw value.
- `core.addPath` also records the directory for later workflow steps through a file command. That is output to the runner of the workflow and is left out; only its effect on this process's `PATH` is modelled (`Action.AddPath`). The variable is taken to be named exactly `PATH`; Windows' case-insensitive environment names are not modelled.
- Regular expressions are not interpreted generally. The three patterns of `parsePublishOutput` are dedicated scanners, and case-insensitive matching is ASCII lower-casing. Without the `u` flag these agree with the JavaScript engine for these patterns.
- Installer.InstallFresh: the error for a missing binary reads `Binary not found in extracted archive`. The source embeds the temporary extraction path, which the model does not have.
- Runner.ExecuteCommand: a non-zero exit is `ExitCode(code)`, without a message. `exec.exec` is called without `ignoreReturnCode`, so `@actions/exec` itself rejects on a non-zero exit with its own message. The `Command failed with exit code` text (src/runner.ts:160-162) is never reached. Either way the step fails, which is what the model keeps.
- Layout.FindBinary: the returned path is relative to the extraction root, not joined onto the extraction directory.
- Layout.FindPluginBinary: the returned path is relative to the extraction root, not joined onto the extraction directory.
- Layout.FindBinary: the file system is taken to be case-sensitive. `fs.existsSync` on the default case-insensitive volumes of macOS and Windows also finds, say, a root entry `RELICTA`; the model then goes on to scan subdirectories.
- Layout.FindPluginBinary: the file system is taken to be case-sensitive, so the `existsSync` tests for the root `<plugin><ext>` and for the binary inside a subdirectory match names exactly, unlike on the default volumes of macOS and Windows.
- Layout.FindBinary: every `Other` entry, a symbolic link included, is taken to exist. `fs.existsSync` follows links and reports a broken one as missing, so for a root holding a broken link `relicta` and a folder `relicta_Linux_x86_64` holding `relicta` the source returns the file in the folder, where the model returns the root link.
- Layout.FindPluginBinary: every `Other` entry, a symbolic link included, is taken to exist, at the root and inside a folder, although `fs.existsSync` reports a broken link as missing.
- Artifacts.InstalledPluginRoundTrip: distinct names give distinct file names, but `copyFileSync` (src/installer.ts:149) onto a case-insensitive volume, the default on macOS and Windows, makes `GitHub` and `github` write the same file, and the second overwrites the first. The model takes the file system to be case-sensitive.
- Layout.FindPluginBinary: `<plugin><ext>` is treated as a single path segment. `path.join` normalises an empty name, `.`, `..` or a name holding `/` into another path. For example, an empty plugin name with no extension makes the source test, and return, the extraction directory itself. Plugin names are single segments, and for those the two agree.
- Lower-casing elsewhere (command dispatch, plugin OS names) is ASCII only. The strings compared there are ASCII keywords. JavaScript maps the only non-ASCII characters that lower-case into ASCII (U+212A KELVIN SIGN to `k`, U+0130 to `i` plus a combining dot) to nothing that spells one of them.
- Generated declarations under `dist/` are out of date relative to `src/` and are not part of this model. `src/types.ts` holds only interfaces; they are the datatypes `Runner.ActionInputs`, `Scraper.ActionOutputs`, `Platform.Platform` and `Artifacts.DownloadInfo`.

=== FILE: action.dfy ===
/** The entry point `run` of src/main.ts: reading and defaulting the inputs,
    refusing to start without a token, installing the tool, putting its
    directory on PATH, running it and publishing the step outputs. The
    workflow inputs are a map from input name to raw value, and the installer
    is an oracle from version to binary path. */
module Action {
  import opened Wrappers
  import opened Text
  import opened Scraper
  import opened Runner

  /** `core.getInput(name)`: the supplied value with its surrounding white
      space trimmed; an input that was not supplied reads as empty. */
  function GetInput(raw: map<string, string>, name: string): string {
    if name in raw then Trim(raw[name]) else ""
  }

  /** An input value never starts or ends with white space. */
  lemma InputTrimmed(raw: map<string, string>, name: string)
    ensures var v := GetInput(raw, name); v == [] || (!IsSpace(v[0]) && !IsSpace(v[|v| - 1]))
  {
  }

  /** JavaScript `a || b` on strings: `a` unless it is empty. */
  function OrElse(a: string, b: string): string {
    if a != "" then a else b
  }

  /** The YAML 1.2 core-schema spellings `getBooleanInput` accepts. */
  predicate IsTrueSpelling(v: string) {
    v == "true" || v == "True" || v == "TRUE"
  }

  predicate IsFalseSpelling(v: string) {
    v == "false" || v == "False" || v == "FALSE"
  }

  /** Why the action failed. */
  datatype Failure =
    | NotBoolean(input: string)          // an input outside the YAML 1.2 core booleans
    | MissingToken                       // no token from the input or the environment
    | InstallFailed(message: string)
    | CommandFailed(error: RunError)

  /** `core.getBooleanInput(name)`: the three spellings of each boolean are
      accepted and anything else, the empty string included, is an error. */
  function GetBooleanInput(raw: map<string, string>, name: string): (r: Result<bool, Failure>)
    ensures r == Ok(true) <==> IsTrueSpelling(GetInput(raw, name))
    ensures r == Ok(false) <==> IsFalseSpelling(GetInput(raw, name))
    ensures r.Err? ==> r.error == NotBoolean(name)
  {
    var v := GetInput(raw, name);
    if IsTrueSpelling(v) then Ok(true)
    else if IsFalseSpelling(v) then Ok(false)
    else Err(NotBoolean(name))
  }

  /** An input that was not supplied is not a boolean: the action relies on
      its metadata to give both boolean inputs a default. */
  lemma AbsentBooleanRejected(raw: map<string, string>, name: string)
    requires name !in raw
    ensures GetBooleanInput(raw, name) == Err(NotBoolean(name))
  {
  }

  const DefaultVersion := "latest"
  const DefaultCommand := "full"
  const DefaultDirectory := "."

  /** The object literal `inputs` of `run`, its fields read in source order.
      Inline configuration and plugins are never read here. */
  function ResolveInputs(raw: map<string, string>, envToken: Option<string>): (r: Result<ActionInputs, Failure>)
    ensures r.Err? <==> GetBooleanInput(raw, "auto-approve").Err? || GetBooleanInput(raw, "dry-run").Err?
    ensures r.Err? ==> r.error == NotBoolean(if GetBooleanInput(raw, "auto-approve").Err? then "auto-approve" else "dry-run")
    ensures r.Ok? ==>
              && r.value.version == (if GetInput(raw, "version") == "" then DefaultVersion else GetInput(raw, "version"))
              && r.value.command == (if GetInput(raw, "command") == "" then DefaultCommand else GetInput(raw, "command"))
              && r.value.workingDirectory
                 == (if GetInput(raw, "working-directory") == "" then DefaultDirectory else GetInput(raw, "working-directory"))
    ensures r.Ok? ==> r.value.version != "" && r.value.command != "" && r.value.workingDirectory != ""
    ensures r.Ok? ==>
              && (GetInput(raw, "github-token") != "" ==> r.value.githubToken == GetInput(raw, "github-token"))
              && (GetInput(raw, "github-token") == "" && Truthy(envToken) ==> r.value.githubToken == envToken.value)
              && (GetInput(raw, "github-token") == "" && !Truthy(envToken) ==> r.value.githubToken == "")
    ensures r.Ok? ==> (r.value.config.Some? <==> GetInput(raw, "config") != "")
                      && (r.value.config.Some? ==> r.value.config.value == GetInput(raw, "config"))
    ensures r.Ok? ==> r.value.configContent.None? && r.value.plugins == []
    ensures r.Ok? ==> r.value.autoApprove == GetBooleanInput(raw, "auto-approve").value
                      && r.value.dryRun == GetBooleanInput(raw, "dry-run").value
  {
    var version := OrElse(GetInput(raw, "version"), DefaultVersion);
    var command := OrElse(GetInput(raw, "command"), DefaultCommand);
    var token := OrElse(GetInput(raw, "github-token"), OrElse(if envToken.Some? then envToken.value else "", ""));
    var config := if GetInput(raw, "config") != "" then Some(GetInput(raw, "config")) else None;
    match GetBooleanInput(raw, "auto-approve")
    case Err(e) => Err(e)
    case Ok(autoApprove) =>
      match GetBooleanInput(raw, "dry-run")
      case Err(e) => Err(e)
      case Ok(dryRun) =>
        var dir := OrElse(GetInput(raw, "working-directory"), DefaultDirectory);
        Ok(ActionInputs(version, command, token, config, None, autoApprove, dryRun, dir, []))
  }

  // The directory put on PATH.

  /** The length of the last path segment: the characters after the last `/`. */
  function LastSegmentLength(p: string): (n: nat)
    ensures n <= |p|
    ensures forall k :: |p| - n <= k < |p| ==> p[k] != '/'
    ensures n < |p| ==> p[|p| - n - 1] == '/'
  {
    if p == [] || p[|p| - 1] == '/' then 0
    else 1 + LastSegmentLength(p[..|p| - 1])
  }

  /** `binaryPath.replace(/\/[^/]+$/, '')`: a final `/` followed by a
      non-empty last segment is removed; a path without `/`, or ending in
      `/`, is left as it is. */
  function PathDir(p: string): (r: string)
    ensures |r| <= |p| && r == p[..|r|]
    ensures r != p ==> |r| + 1 < |p| && p[|r|] == '/' && '/' !in p[|r| + 1..]
    ensures r == p ==> p == [] || p[|p| - 1] == '/' || '/' !in p
  {
    var n := LastSegmentLength(p);
    if 0 < n < |p| then
      p[..|p| - n - 1]
    else p
  }

  /** A directory and a file name inside it: the directory is what goes on PATH. */
  lemma PathDirOfJoin(dir: string, name: string)
    requires name != "" && '/' !in name
    ensures PathDir(dir + "/" + name) == dir
  {
    SegmentOfJoin(dir, name);
    assert (dir + "/" + name)[..|dir|] == dir;
  }

  /** The last segment of `dir/name` is `name`. */
  lemma {:induction false} SegmentOfJoin(dir: string, name: string)
    requires '/' !in name
    ensures LastSegmentLength(dir + "/" + name) == |name|
    decreases |name|
  {
    var p := dir + "/" + name;
    if name != [] {
      var init := name[..|name| - 1];
      assert p[..|p| - 1] == dir + "/" + init;
      assert p[|p| - 1] == name[|name| - 1];
      assert '/' !in init;
      SegmentOfJoin(dir, init);
    }
  }

  const PathVar := "PATH"

  /** `path.delimiter` on the host `process.platform`. */
  function PathDelimiter(hostOs: string): string {
    if hostOs == "win32" then ";" else ":"
  }

  /** `core.addPath(dir)` as seen by the action's own process: `dir` and the
      path delimiter are put in front of `PATH`. An unset `PATH` reads as
      `undefined`, which is what the template literal renders. */
  function AddPath(environment: map<string, string>, dir: string, delimiter: string): (env: map<string, string>)
    ensures env.Keys == environment.Keys + {PathVar}
    ensures StartsWith(env[PathVar], dir + delimiter)
    ensures PathVar in environment ==> env[PathVar] == dir + delimiter + environment[PathVar]
    ensures forall k :: k in environment && k != PathVar ==> env[k] == environment[k]
  {
    var inherited := if PathVar in environment then environment[PathVar] else "undefined";
    assert (dir + delimiter + inherited)[..|dir + delimiter|] == dir + delimiter;
    environment[PathVar := dir + delimiter + inherited]
  }

  // Step outputs.

  /** Output `name` is written ahead of `rest` when its field is present and
      not empty. */
  function Put(name: string, field: Option<string>, rest: seq<(string, string)>): (w: seq<(string, string)>)
    ensures |w| <= |rest| + 1
    ensures (forall k :: 0 <= k < |rest| ==> rest[k].1 != "") ==> forall k :: 0 <= k < |w| ==> w[k].1 != ""
  {
    if Truthy(field) then [(name, field.value)] + rest else rest
  }

  /** Putting one output in front changes what is written for that name only. */
  lemma WrittenPut(name: string, field: Option<string>, rest: seq<(string, string)>)
    ensures forall m :: Written(Put(name, field, rest), m)
                        == (if Truthy(field) && m == name then field else Written(rest, m))
  {
    if Truthy(field) {
      assert Put(name, field, rest)[1..] == rest;
    }
  }

  /** The step outputs written, in order: each output whose field is present
      and not empty. */
  function SetOutputs(o: ActionOutputs): (w: seq<(string, string)>)
    ensures |w| <= 4
    ensures forall k :: 0 <= k < |w| ==> w[k].1 != ""
    ensures Written(w, "version") == (if Truthy(o.version) then o.version else None)
    ensures Written(w, "release-url") == (if Truthy(o.releaseUrl) then o.releaseUrl else None)
    ensures Written(w, "tag-name") == (if Truthy(o.tagName) then o.tagName else None)
    ensures Written(w, "release-id") == (if Truthy(o.releaseId) then o.releaseId else None)
  {
    var w4 := Put("release-id", o.releaseId, []);
    var w3 := Put("tag-name", o.tagName, w4);
    var w2 := Put("release-url", o.releaseUrl, w3);
    WrittenPut("release-id", o.releaseId, []);
    WrittenPut("tag-name", o.tagName, w4);
    WrittenPut("release-url", o.releaseUrl, w3);
    WrittenPut("version", o.version, w2);
    Put("version", o.version, w2)
  }

  /** The value written for output `name`, if any. */
  function Written(w: seq<(string, string)>, name: string): Option<string> {
    if w == [] then None
    else if w[0].0 == name then Some(w[0].1)
    else Written(w[1..], name)
  }

  /** A version string in the `x.y.z` shape is never empty. */
  lemma SemVerNonEmpty(v: string)
    requires IsSemVer(v)
    ensures v != ""
  {
  }

  /** Scraped outputs are published in pairs: `version` and `tag-name` are
      written together, the tag being the version with a leading `v`. */
  lemma VersionAndTagWrittenTogether(stdout: string)
    ensures var w := SetOutputs(ParsePublishOutput(stdout));
            && (Written(w, "version").Some? <==> Written(w, "tag-name").Some?)
            && (Written(w, "version").Some? ==> Written(w, "tag-name").value == "v" + Written(w, "version").value)
  {
    var o := ParsePublishOutput(stdout);
    if o.version.Some? {
      SemVerNonEmpty(o.version.value);
    }
  }

  // The action.

  /** What one run of the action did. */
  datatype Report = Report(
    installed: seq<string>,              // the versions the installer was asked for
    addedPath: Option<string>,           // the directory put on PATH
    invoked: seq<Invocation>,            // the processes started
    outputs: seq<(string, string)>,      // the step outputs written
    failure: Option<Failure>)            // the message passed to `setFailed`

  const TokenEnvVar := "GITHUB_TOKEN"

  /** `run`: resolve the inputs and refuse an empty token before anything
      is installed; a failed input read ends the run the same way. */
  function Run(raw: map<string, string>, environment: map<string, string>, hostOs: string,
               install: string -> Result<string, string>, tempPath: string, procs: Processes): (r: Report)
    ensures r.installed != [] ==>
              && ResolveInputs(raw, EnvLookup(environment, TokenEnvVar)).Ok?
              && ResolveInputs(raw, EnvLookup(environment, TokenEnvVar)).value.githubToken != ""
    ensures r.installed == [] ==> r.addedPath.None? && r.invoked == [] && r.outputs == [] && r.failure.Some?
    ensures ResolveInputs(raw, EnvLookup(environment, TokenEnvVar)).Err? ==>
              r.failure == Some(ResolveInputs(raw, EnvLookup(environment, TokenEnvVar)).error)
    ensures ResolveInputs(raw, EnvLookup(environment, TokenEnvVar)).Ok? ==>
              var inputs := ResolveInputs(raw, EnvLookup(environment, TokenEnvVar)).value;
              && (inputs.githubToken == "" ==> r.installed == [] && r.failure == Some(MissingToken))
              && (inputs.githubToken != "" ==> r == Launch(inputs, environment, hostOs, install, tempPath, procs))
  {
    match ResolveInputs(raw, EnvLookup(environment, TokenEnvVar))
    case Err(e) => Report([], None, [], [], Some(e))
    case Ok(inputs) =>
      if inputs.githubToken == "" then Report([], None, [], [], Some(MissingToken))
      else Launch(inputs, environment, hostOs, install, tempPath, procs)
  }

  /** The rest of `run` once the token is known: install the tool, put its
      directory on PATH, run the command with that PATH and write the
      outputs; the first error ends the run as a failure. */
  function Launch(inputs: ActionInputs, environment: map<string, string>, hostOs: string,
                  install: string -> Result<string, string>, tempPath: string, procs: Processes): (r: Report)
    ensures r.installed == [inputs.version]
    ensures r.addedPath.Some? <==> install(inputs.version).Ok?
    ensures r.addedPath.Some? ==> r.addedPath.value == PathDir(install(inputs.version).value)
    ensures install(inputs.version).Err? ==>
              r.invoked == [] && r.outputs == [] && r.failure == Some(InstallFailed(install(inputs.version).error))
    ensures install(inputs.version).Ok? ==>
              var binary := install(inputs.version).value;
              var run := RunReleasePilot(binary, inputs, AddPath(environment, PathDir(binary), PathDelimiter(hostOs)),
                                         tempPath, procs);
              && r.invoked == run.invoked
              && (run.outputs.Ok? ==> r.outputs == SetOutputs(run.outputs.value) && r.failure.None?)
              && (run.outputs.Err? ==> r.outputs == [] && r.failure == Some(CommandFailed(run.outputs.error)))
    ensures r.invoked != [] ==>
              && install(inputs.version).Ok?
              && forall k :: 0 <= k < |r.invoked| ==>
                   r.invoked[k].binary == install(inputs.version).value
                   && r.invoked[k].env
                      == Environment(inputs, AddPath(environment, r.addedPath.value, PathDelimiter(hostOs)))
    ensures r.outputs != [] ==> r.failure.None?
    ensures r.failure.None? ==> r.addedPath.Some? && r.invoked != []
  {
    match install(inputs.version)
    case Err(m) => Report([inputs.version], None, [], [], Some(InstallFailed(m)))
    case Ok(binaryPath) =>
      var dir := PathDir(binaryPath);
      var run := RunReleasePilot(binaryPath, inputs, AddPath(environment, dir, PathDelimiter(hostOs)), tempPath, procs);
      match run.outputs
      case Err(e) => Report([inputs.version], Some(dir), run.invoked, [], Some(CommandFailed(e)))
      case Ok(o) => Report([inputs.version], Some(dir), run.invoked, SetOutputs(o), None)
  }

  /** Every process the action starts finds the installed tool's directory
      first on its PATH, ahead of the inherited PATH. */
  lemma ToolSeesInstallDir(inputs: ActionInputs, environment: map<string, string>, hostOs: string,
                           install: string -> Result<string, string>, tempPath: string, procs: Processes)
    ensures var r := Launch(inputs, environment, hostOs, install, tempPath, procs);
            forall k :: 0 <= k < |r.invoked| ==>
              && r.addedPath.Some?
              && PathVar in r.invoked[k].env
              && StartsWith(r.invoked[k].env[PathVar], r.addedPath.value + PathDelimiter(hostOs))
              && (PathVar in environment ==>
                    r.invoked[k].env[PathVar] == r.addedPath.value + PathDelimiter(hostOs) + environment[PathVar])
  {
    var r := Launch(inputs, environment, hostOs, install, tempPath, procs);
    if r.invoked != [] {
      var env := AddPath(environment, r.addedPath.value, PathDelimiter(hostOs));
      assert PathVar != TokenVar && PathVar != DryRunVar;
      assert Environment(inputs, env)[PathVar] == env[PathVar];
    }
  }

  /** Outputs are written only from the standard output of a `publish` step
      that ends a successful run of the tool. */
  lemma LaunchOutputsFromPublish(inputs: ActionInputs, environment: map<string, string>, hostOs: string,
                                 install: string -> Result<string, string>, tempPath: string, procs: Processes)
    ensures var r := Launch(inputs, environment, hostOs, install, tempPath, procs);
            r.outputs != [] ==>
              var last := r.invoked[|r.invoked| - 1];
              && last.args[0] == "publish"
              && r.outputs == SetOutputs(ParsePublishOutput(procs(|r.invoked| - 1, last).stdout))
  {
    var r := Launch(inputs, environment, hostOs, install, tempPath, procs);
    if r.outputs != [] {
      var binary := install(inputs.version).value;
      var env := AddPath(environment, PathDir(binary), PathDelimiter(hostOs));
      var run := RunReleasePilot(binary, inputs, env, tempPath, procs);
      assert run.outputs.Ok?;
      assert SetOutputs(NoOutputs) == [];
      OutputsOnlyFromPublish(binary, inputs, env, tempPath, procs);
    }
  }

  /** `process.env[name]`. */
  function EnvLookup(environment: map<string, string>, name: string): Option<string> {
    if name in environment then Some(environment[name]) else None
  }

  /** Without a token from the input or the environment the action fails
      before the installer is asked for anything. */
  lemma MissingTokenFailsBeforeInstall(raw: map<string, string>, environment: map<string, string>, hostOs: string,
                                       install: string -> Result<string, string>, tempPath: string, procs: Processes)
    requires GetInput(raw, "github-token") == ""
    requires TokenEnvVar !in environment || environment[TokenEnvVar] == ""
    requires GetBooleanInput(raw, "auto-approve").Ok? && GetBooleanInput(raw, "dry-run").Ok?
    ensures Run(raw, environment, hostOs, install, tempPath, procs)
            == Report([], None, [], [], Some(MissingToken))
  {
  }
}

=== FILE: artifacts.dfy ===
/** Release-asset naming and URLs (src/installer.ts): the main tool's archive
    and checksum manifest, and the per-plugin archives that live in their own
    `plugin-<name>` repositories. */
module Artifacts {
  import opened Text
  import opened Platform

  const RepoOwner := "relicta-tech"
  const RepoName := "relicta"
  const ManifestName := "checksums.txt"
  const LatestVersion := "latest"

  datatype DownloadInfo = DownloadInfo(url: string, filename: string, checksumUrl: string)

  /** The GitHub release-asset directory of `repo` for `version`: the literal
      version `latest` selects the latest release, any other string is used
      verbatim as a release tag. */
  function AssetDir(repo: string, version: string): string {
    "https://github.com/" + RepoOwner + "/" + repo
      + (if version == LatestVersion then "/releases/latest/download/"
         else "/releases/download/" + version + "/")
  }

  function ReleasesRoot(repo: string): string {
    "https://github.com/" + RepoOwner + "/" + repo + "/releases/"
  }

  /** The routing rule every release URL of the action follows. */
  lemma {:induction false} AssetDirRouting(repo: string, version: string, file: string)
    ensures StartsWith(AssetDir(repo, version) + file, ReleasesRoot(repo) + "latest/download/")
            <==> version == LatestVersion
    ensures version == LatestVersion ==>
              AssetDir(repo, version) + file == ReleasesRoot(repo) + "latest/download/" + file
    ensures version != LatestVersion ==>
              AssetDir(repo, version) + file == ReleasesRoot(repo) + "download/" + version + "/" + file
  {
    var root := ReleasesRoot(repo);
    var u := AssetDir(repo, version) + file;
    if version == LatestVersion {
      assert u == root + "latest/download/" + file;
      assert u[..|root + "latest/download/"|] == root + "latest/download/";
    } else {
      assert u == root + "download/" + version + "/" + file;
      assert u[|root|] == 'd';
      assert (root + "latest/download/")[|root|] == 'l';
      if StartsWith(u, root + "latest/download/") {
        assert false;
      }
    }
  }

  /** Archive extension of the main tool: `zip` on Windows, `tar.gz` elsewhere. */
  function ArchiveExt(p: Platform): string {
    if p.os == Windows then "zip" else "tar.gz"
  }

  /** The main tool's binary name inside its archive. */
  function BinaryName(p: Platform): string {
    if p.os == Windows then "relicta.exe" else "relicta"
  }

  /** The main tool's archive name, `relicta_<os>_<arch>.<ext>`. */
  function MainFileName(p: Platform): string {
    "relicta_" + OsName(p.os) + "_" + ArchName(p.arch) + "." + ArchiveExt(p)
  }

  /** The archive is a zip file exactly on Windows and a gzipped tarball
      everywhere else, and its name is a single path segment. */
  lemma MainFileNameShape(p: Platform)
    ensures StartsWith(MainFileName(p), "relicta_" + OsName(p.os) + "_" + ArchName(p.arch) + ".")
    ensures EndsWith(MainFileName(p), ".zip") <==> p.os == Windows
    ensures EndsWith(MainFileName(p), ".tar.gz") <==> p.os != Windows
    ensures '/' !in MainFileName(p)
  {
    var head := "relicta_" + OsName(p.os) + "_" + ArchName(p.arch) + ".";
    assert MainFileName(p) == head + ArchiveExt(p);
    assert MainFileName(p)[..|head|] == head;
    assert '/' !in head;
    if p.os == Windows {
      assert MainFileName(p)[|MainFileName(p)| - 4..] == ".zip";
      assert MainFileName(p)[|MainFileName(p)| - 7] == head[|head| - 4];
    } else {
      assert MainFileName(p)[|MainFileName(p)| - 7..] == ".tar.gz";
      assert MainFileName(p)[|MainFileName(p)| - 4] == 'r';
    }
  }

  /** A name appended to a directory URL ending in `/` ends with `/<name>`. */
  lemma AppendedToDir(dir: string, name: string)
    requires |dir| > 0 && dir[|dir| - 1] == '/'
    ensures EndsWith(dir + name, "/" + name)
    ensures (dir + name)[..|dir + name| - |name|] == dir
  {
    assert (dir + name)[|dir| - 1..] == [dir[|dir| - 1]] + name;
    assert (dir + name)[..|dir|] == dir;
  }

  /** `getDownloadInfo`: the archive and the checksum manifest, both taken
      from the same release directory of the main tool's repository. */
  function GetDownloadInfo(version: string, p: Platform): (d: DownloadInfo)
    ensures d.filename == MainFileName(p)
    ensures EndsWith(d.url, "/" + d.filename)
    ensures EndsWith(d.checksumUrl, "/" + ManifestName)
    ensures d.url[..|d.url| - |d.filename|] == d.checksumUrl[..|d.checksumUrl| - |ManifestName|]
    ensures StartsWith(d.url, ReleasesRoot(RepoName) + "latest/download/") <==> version == LatestVersion
    ensures StartsWith(d.checksumUrl, ReleasesRoot(RepoName) + "latest/download/") <==> version == LatestVersion
    ensures version == LatestVersion ==>
              && d.url == ReleasesRoot(RepoName) + "latest/download/" + d.filename
              && d.checksumUrl == ReleasesRoot(RepoName) + "latest/download/" + ManifestName
    ensures version != LatestVersion ==>
              && d.url == ReleasesRoot(RepoName) + "download/" + version + "/" + d.filename
              && d.checksumUrl == ReleasesRoot(RepoName) + "download/" + version + "/" + ManifestName
  {
    var filename := MainFileName(p);
    var dir := AssetDir(RepoName, version);
    AssetDirRouting(RepoName, version, filename);
    AssetDirRouting(RepoName, version, ManifestName);
    AssetDirEndsWithSlash(RepoName, version);
    AppendedToDir(dir, filename);
    AppendedToDir(dir, ManifestName);
    DownloadInfo(dir + filename, filename, dir + ManifestName)
  }

  lemma AssetDirEndsWithSlash(repo: string, version: string)
    ensures |AssetDir(repo, version)| > 0 && AssetDir(repo, version)[|AssetDir(repo, version)| - 1] == '/'
  {
  }

  /** Distinct (version, platform) pairs never share an archive URL: the URL
      identifies what is downloaded. */
  lemma {:induction false} DownloadUrlInjective(v: string, p: Platform, w: string, q: Platform)
    requires GetDownloadInfo(v, p).url == GetDownloadInfo(w, q).url
    ensures v == w && p == q
  {
    DownloadUrlParts(v, p);
    DownloadUrlParts(w, q);
    SplitAfterLastSlash(AssetDir(RepoName, v), MainFileName(p), AssetDir(RepoName, w), MainFileName(q));
    AssetDirInjective(RepoName, v, w);
    FileNameInjective(p, q);
  }

  /** The archive URL is its release directory followed by a single segment. */
  lemma DownloadUrlParts(v: string, p: Platform)
    ensures GetDownloadInfo(v, p).url == AssetDir(RepoName, v) + MainFileName(p)
    ensures |AssetDir(RepoName, v)| > 0 && AssetDir(RepoName, v)[|AssetDir(RepoName, v)| - 1] == '/'
    ensures '/' !in MainFileName(p)
  {
    AssetDirEndsWithSlash(RepoName, v);
    MainFileNameShape(p);
  }

  /** Distinct versions select distinct release directories. */
  lemma AssetDirInjective(repo: string, v: string, w: string)
    requires AssetDir(repo, v) == AssetDir(repo, w)
    ensures v == w
  {
    var root := ReleasesRoot(repo);
    AssetDirRouting(repo, v, "");
    AssetDirRouting(repo, w, "");
    if v != LatestVersion && w != LatestVersion {
      var pre := root + "download/";
      assert AssetDir(repo, v) == pre + v + "/";
      assert AssetDir(repo, w) == pre + w + "/";
      assert v == AssetDir(repo, v)[|pre|..|AssetDir(repo, v)| - 1];
      assert w == AssetDir(repo, w)[|pre|..|AssetDir(repo, w)| - 1];
    }
  }

  /** The OS name starts at index 8 of the file name and the three OS names
      start with distinct letters; the architecture name follows it and the two
      start with distinct letters. */
  lemma FileNameInjective(p: Platform, q: Platform)
    requires MainFileName(p) == MainFileName(q)
    ensures p == q
  {
    assert MainFileName(p)[8] == OsName(p.os)[0];
    assert MainFileName(q)[8] == OsName(q.os)[0];
    var i := 9 + |OsName(p.os)|;
    assert MainFileName(p)[i] == ArchName(p.arch)[0];
    assert MainFileName(q)[i] == ArchName(q.arch)[0];
  }

  /** A directory ending in `/` followed by a segment without `/` splits
      back into that directory and segment. */
  lemma SplitAfterLastSlash(d1: string, t1: string, d2: string, t2: string)
    requires d1 + t1 == d2 + t2
    requires |d1| > 0 && d1[|d1| - 1] == '/' && |d2| > 0 && d2[|d2| - 1] == '/'
    requires '/' !in t1 && '/' !in t2
    ensures d1 == d2 && t1 == t2
  {
    var s := d1 + t1;
    forall i | |d1| <= i < |s| ensures s[i] != '/' {
      assert s[i] == t1[i - |d1|];
    }
    forall i | |d2| <= i < |s| ensures s[i] != '/' {
      assert s[i] == (d2 + t2)[i] == t2[i - |d2|];
    }
    assert s[|d1| - 1] == '/' && s[|d2| - 1] == (d2 + t2)[|d2| - 1] == '/';
    assert d1 == s[..|d1|] == d2;
    assert t1 == s[|d1|..] == t2;
  }

  // Plugins: each plugin `<name>` is released from its own repository
  // `plugin-<name>` of the same owner, under the same version rule.

  function PluginRepo(name: string): string {
    "plugin-" + name
  }

  /** The lower-cased OS name used in plugin archive names. */
  function PluginOsName(os: Os): (r: string)
    ensures r == Lower(OsName(os))
    ensures os == Darwin ==> r == "darwin"
    ensures os == Linux ==> r == "linux"
    ensures os == Windows ==> r == "windows"
  {
    var r := Lower(OsName(os));
    match os
    case Darwin =>
      assert r == "darwin" by { assert |r| == 6 && r[0] == 'd'; }
      r
    case Linux =>
      assert r == "linux" by { assert |r| == 5 && r[0] == 'l'; }
      r
    case Windows =>
      assert r == "windows" by { assert |r| == 7 && r[0] == 'w'; }
      r
  }

  /** Suffix of an installed binary: `.exe` on Windows, nothing elsewhere. */
  function BinaryExt(p: Platform): string {
    if p.os == Windows then ".exe" else ""
  }

  /** The plugin archive name `<name>_<lower-case os>_<arch>` with `.zip` on
      Windows and `.tar.gz` elsewhere. */
  function PluginArchiveName(name: string, p: Platform): (f: string)
    ensures StartsWith(f, name + "_" + PluginOsName(p.os) + "_" + ArchName(p.arch) + ".")
    ensures EndsWith(f, ".zip") <==> p.os == Windows
    ensures EndsWith(f, ".tar.gz") <==> p.os != Windows
    ensures |f| == |name| + 2 + |PluginOsName(p.os)| + |ArchName(p.arch)| + (if p.os == Windows then 4 else 7)
  {
    var head := name + "_" + PluginOsName(p.os) + "_" + ArchName(p.arch);
    var ext := if p.os == Windows then ".zip" else ".tar.gz";
    PluginArchiveSuffix(head, p);
    head + ext
  }

  lemma PluginArchiveSuffix(head: string, p: Platform)
    requires EndsWith(head, ArchName(p.arch))
    ensures var f := head + (if p.os == Windows then ".zip" else ".tar.gz");
      && f[..|head + "."|] == head + "."
      && (EndsWith(f, ".zip") <==> p.os == Windows)
      && (EndsWith(f, ".tar.gz") <==> p.os != Windows)
  {
    var ext := if p.os == Windows then ".zip" else ".tar.gz";
    var f := head + ext;
    assert f[..|head + "."|] == head + ".";
    assert f[|f| - |ext|..] == ext;
    if p.os == Windows {
      var a := ArchName(p.arch);
      assert f[|f| - 7] == head[|head| - 3] == a[|a| - 3];
      assert a[|a| - 3] != '.';
    } else {
      assert f[|f| - 4] == 'r';
    }
  }

  /** Recovers the plugin name from a plugin archive name. */
  function PluginOfArchive(archive: string, p: Platform): string
    requires |archive| >= |PluginArchiveName("", p)|
  {
    archive[..|archive| - |PluginArchiveName("", p)|]
  }

  /** The archive name determines the plugin: two plugins of one platform
      never download the same asset name. */
  lemma {:induction false} PluginArchiveRoundTrip(name: string, p: Platform)
    ensures |PluginArchiveName(name, p)| >= |PluginArchiveName("", p)|
    ensures PluginOfArchive(PluginArchiveName(name, p), p) == name
  {
    var f := PluginArchiveName(name, p);
    assert StartsWith(f, name + "_" + PluginOsName(p.os) + "_" + ArchName(p.arch) + ".");
    assert f[..|name|] == (name + "_" + PluginOsName(p.os) + "_" + ArchName(p.arch) + ".")[..|name|];
  }

  /** The installed plugin file name: `relicta-<name>`, plus `.exe` on
      Windows, as the main tool's plugin loader expects. */
  function InstalledPluginName(name: string, p: Platform): (r: string)
    ensures StartsWith(r, "relicta-" + name)
    ensures |r| == |"relicta-" + name| + |BinaryExt(p)|
    ensures EndsWith(r, BinaryExt(p))
  {
    var r := "relicta-" + name + BinaryExt(p);
    assert r[..|"relicta-" + name|] == "relicta-" + name;
    assert r[|r| - |BinaryExt(p)|..] == BinaryExt(p);
    r
  }

  /** Recovers the plugin name from an installed file name. */
  function InstalledPluginOf(installed: string, p: Platform): string
    requires |installed| >= 8 + |BinaryExt(p)|
  {
    installed[8..|installed| - |BinaryExt(p)|]
  }

  /** Distinct plugin names give distinct installed file names, so on a
      case-sensitive file system plugins never overwrite each other. */
  lemma InstalledPluginRoundTrip(name: string, p: Platform)
    ensures InstalledPluginOf(InstalledPluginName(name, p), p) == name
  {
    var r := InstalledPluginName(name, p);
    assert r == "relicta-" + name + BinaryExt(p);
    assert r[8..|r| - |BinaryExt(p)|] == name;
  }

  /** `getPluginUrl`. */
  function PluginUrl(name: string, version: string, filename: string): string {
    AssetDir(PluginRepo(name), version) + filename
  }

  /** `getPluginChecksumUrl`. */
  function PluginChecksumUrl(name: string, version: string): string {
    AssetDir(PluginRepo(name), version) + ManifestName
  }

  /** Plugin URLs follow the main tool's rule, in the plugin's own repository:
      the `latest` route iff the version is `latest`, otherwise the version
      verbatim; the archive and its manifest share one release directory. */
  lemma PluginUrlRouting(name: string, version: string, filename: string)
    ensures StartsWith(PluginUrl(name, version, filename), ReleasesRoot(PluginRepo(name)) + "latest/download/")
            <==> version == LatestVersion
    ensures StartsWith(PluginChecksumUrl(name, version), ReleasesRoot(PluginRepo(name)) + "latest/download/")
            <==> version == LatestVersion
    ensures version == LatestVersion ==>
              && PluginUrl(name, version, filename) == ReleasesRoot(PluginRepo(name)) + "latest/download/" + filename
              && PluginChecksumUrl(name, version) == ReleasesRoot(PluginRepo(name)) + "latest/download/" + ManifestName
    ensures version != LatestVersion ==>
              && PluginUrl(name, version, filename)
                 == ReleasesRoot(PluginRepo(name)) + "download/" + version + "/" + filename
              && PluginChecksumUrl(name, version)
                 == ReleasesRoot(PluginRepo(name)) + "download/" + version + "/" + ManifestName
    ensures EndsWith(PluginUrl(name, version, filename), "/" + filename)
    ensures EndsWith(PluginChecksumUrl(name, version), "/" + ManifestName)
    ensures PluginUrl(name, version, filename)[..|PluginUrl(name, version, filename)| - |filename|]
            == PluginChecksumUrl(name, version)[..|PluginChecksumUrl(name, version)| - |ManifestName|]
  {
    var dir := AssetDir(PluginRepo(name), version);
    AssetDirRouting(PluginRepo(name), version, filename);
    AssetDirRouting(PluginRepo(name), version, ManifestName);
    AssetDirEndsWithSlash(PluginRepo(name), version);
    AppendedToDir(dir, filename);
    AppendedToDir(dir, ManifestName);
  }
}

=== FILE: checksums.dfy ===
/** Checksum-manifest lookup and the two verification policies of
    src/installer.ts: `verifyChecksum` for the main tool, which never fails the
    install, and `verifyPluginChecksum`, which fails only on a mismatch. The
    SHA-256 digest of the archive is an input: the hash itself is not modelled. */
module Checksums {
  import opened Wrappers
  import opened Text
  import opened Seqs

  /** A manifest line lists `filename` when its fields number at least two and
      the second is exactly `filename`. */
  predicate Lists(line: string, filename: string) {
    var fs := Fields(line);
    |fs| >= 2 && fs[1] == filename
  }

  /** The expected digest for `filename`: the first field of the first line
      that lists it. Such a field is never empty and holds no white space. */
  function ExpectedDigest(manifest: string, filename: string): (r: Option<string>)
    ensures r.Some? ==> r.value != "" && NoSpace(r.value)
    ensures r.None? <==> forall j :: 0 <= j < |Split(manifest, '\n')| ==> !Lists(Split(manifest, '\n')[j], filename)
  {
    var lines := Split(manifest, '\n');
    match FirstIndex(lines, line => Lists(line, filename))
    case None => None
    case Some(i) => Some(Fields(lines[i])[0])
  }

  /** The digest comes from the first listing line, whatever later lines say. */
  lemma ExpectedIsFirstListing(manifest: string, filename: string)
    requires ExpectedDigest(manifest, filename).Some?
    ensures exists i :: 0 <= i < |Split(manifest, '\n')|
              && Lists(Split(manifest, '\n')[i], filename)
              && Fields(Split(manifest, '\n')[i])[0] == ExpectedDigest(manifest, filename).value
              && forall j :: 0 <= j < i ==> !Lists(Split(manifest, '\n')[j], filename)
  {
    var lines := Split(manifest, '\n');
    var p := line => Lists(line, filename);
    var i := FirstIndex(lines, p).value;
    assert p(lines[i]);
    assert forall j :: 0 <= j < i ==> !p(lines[j]);
    assert Fields(lines[i])[0] == ExpectedDigest(manifest, filename).value;
    assert 0 <= i < |lines| && Lists(lines[i], filename)
           && forall j :: 0 <= j < i ==> !Lists(lines[j], filename);
  }

  /** What one attempt at verification finds, before any policy is applied. */
  datatype Check =
    | Verified                               // listed digest equals the archive's digest
    | NotListed                              // no usable line lists the archive
    | FetchFailed(message: string)           // downloading the manifest threw
    | Mismatch(expected: string, actual: string)

  /** The body of the `try` shared by both verifiers: `manifest` is the result
      of downloading and reading the manifest, `actual` the archive's hex
      digest. The source tests the expected digest for JavaScript falsiness,
      which also rejects an empty string. */
  function Attempt(manifest: Result<string, string>, filename: string, actual: string): (c: Check)
    ensures manifest.Err? <==> c.FetchFailed?
    ensures c.NotListed? <==> manifest.Ok? && ExpectedDigest(manifest.value, filename).None?
    ensures c.Verified? <==> manifest.Ok? && ExpectedDigest(manifest.value, filename) == Some(actual)
    ensures c.Mismatch? ==> manifest.Ok? && ExpectedDigest(manifest.value, filename) == Some(c.expected)
                            && c.expected != c.actual && c.actual == actual
  {
    match manifest
    case Err(m) => FetchFailed(m)
    case Ok(text) =>
      var expected := ExpectedDigest(text, filename);
      if expected.None? || expected.value == "" then NotListed
      else if actual != expected.value then Mismatch(expected.value, actual)
      else Verified
  }

  /** What a verifier reports to the installer. */
  datatype Status = Passed | Warned(reason: Check) | Fatal(message: string)

  /** `verifyChecksum` (main tool): every failure, a mismatch included, is
      caught and only warned about. */
  function VerifyChecksum(manifest: Result<string, string>, filename: string, actual: string): (s: Status)
    ensures !s.Fatal?
    ensures s.Passed? <==> manifest.Ok? && ExpectedDigest(manifest.value, filename) == Some(actual)
  {
    var c := Attempt(manifest, filename, actual);
    if c.Verified? then Passed else Warned(c)
  }

  const MismatchPhrase := "Checksum mismatch"

  /** The message a plugin mismatch is thrown with. */
  function PluginMismatchMessage(filename: string): string {
    MismatchPhrase + " for " + filename
  }

  /** `verifyPluginChecksum`: an error is rethrown when its message includes
      "Checksum mismatch", and only warned about otherwise. */
  function VerifyPluginChecksum(manifest: Result<string, string>, filename: string, actual: string): (s: Status)
    ensures s.Passed? <==> manifest.Ok? && ExpectedDigest(manifest.value, filename) == Some(actual)
    ensures s.Fatal? <==>
              || (manifest.Ok? && ExpectedDigest(manifest.value, filename).Some?
                  && ExpectedDigest(manifest.value, filename) != Some(actual))
              || (manifest.Err? && Contains(manifest.error, MismatchPhrase))
  {
    var c := Attempt(manifest, filename, actual);
    if c.Verified? then Passed
    else if c.Mismatch? then Fatal(PluginMismatchMessage(filename))
    else if c.FetchFailed? && Contains(c.message, MismatchPhrase) then Fatal(c.message)
    else Warned(c)
  }

  /** The thrown mismatch error is recognised by the rethrow test. */
  lemma MismatchMessageRethrown(filename: string)
    ensures Contains(PluginMismatchMessage(filename), MismatchPhrase)
  {
    PrefixContained(MismatchPhrase, " for " + filename);
    assert PluginMismatchMessage(filename) == MismatchPhrase + (" for " + filename);
  }

  /** The two policies agree except that the plugin policy turns a mismatch
      (or an error that reads like one) into a fatal error where the main
      policy only warns. */
  lemma PoliciesDifferOnlyInFatality(manifest: Result<string, string>, filename: string, actual: string)
    ensures !VerifyPluginChecksum(manifest, filename, actual).Fatal? ==>
              VerifyPluginChecksum(manifest, filename, actual) == VerifyChecksum(manifest, filename, actual)
    ensures VerifyPluginChecksum(manifest, filename, actual).Fatal? ==>
              VerifyChecksum(manifest, filename, actual).Warned?
  {
  }

  /** A manifest line `<digest>  <filename>` for the archive: the first
      listing decides. */
  lemma ListedLineDecides(digest: string, filename: string, rest: string)
    requires digest != "" && NoSpace(digest) && filename != "" && NoSpace(filename)
    ensures ExpectedDigest(digest + "  " + filename + "\n" + rest, filename) == Some(digest)
  {
    var line := digest + "  " + filename;
    var text := line + "\n" + rest;
    assert '\n' !in line;
    SplitAfterPiece(line, rest, '\n');
    assert Split(text, '\n')[0] == line;
    LineFields(digest, filename);
  }

  lemma {:induction false} LineFields(digest: string, filename: string)
    requires digest != "" && NoSpace(digest) && filename != "" && NoSpace(filename)
    ensures Fields(digest + "  " + filename) == [digest, filename]
  {
    var line := digest + "  " + filename;
    assert line[0] == digest[0];
    assert line[|line| - 1] == filename[|filename| - 1];
    TrimKeeps(line);
    assert Fields(line) == SplitRuns(line);
    TwoWords(digest, filename);
  }

  lemma TwoWords(digest: string, filename: string)
    requires digest != "" && NoSpace(digest) && filename != "" && NoSpace(filename)
    ensures SplitRuns(digest + "  " + filename) == [digest, filename]
  {
    var line := digest + "  " + filename;
    assert line == digest + ("  " + filename);
    RunsOfWord(digest, "  " + filename);
    SkipTwoSpaces(filename);
    OneWord(filename);
  }

  lemma OneWord(w: string)
    requires w != "" && NoSpace(w)
    ensures SplitRuns(w) == [w]
  {
    RunsOfWord(w, "");
    assert w + "" == w;
  }

  lemma TrimKeeps(s: string)
    requires s != [] && !IsSpace(s[0]) && !IsSpace(s[|s| - 1])
    ensures Trim(s) == s
  {
    assert TrimStart(s) == s;
    assert TrimEnd(s) == s;
  }

  lemma SkipTwoSpaces(w: string)
    requires w != [] && !IsSpace(w[0])
    ensures TrimStart("  " + w) == w
  {
    var u := " " + w;
    assert u[1..] == w;
    assert TrimStart(w) == w;
    assert TrimStart(u) == w;
    assert ("  " + w)[1..] == u;
  }

  /** A word followed by text that is empty or starts with white space is the
      first piece of the white-space split. */
  lemma {:induction false} RunsOfWord(word: string, rest: string)
    requires word != [] && NoSpace(word)
    requires rest == [] || IsSpace(rest[0])
    ensures SplitRuns(word + rest) == [word] + (if rest == [] then [] else SplitRuns(TrimStart(rest)))
  {
    var t := word + rest;
    assert t[1..] == word[1..] + rest;
    RunsStep(t);
    if |word| == 1 {
      assert word[1..] + rest == rest;
      RunsAfterWord(rest);
    } else {
      RunsOfWord(word[1..], rest);
    }
    assert [word[0]] + word[1..] == word;
  }

  /** A run that starts with a word character extends the first piece of the rest. */
  lemma RunsStep(t: string)
    requires t != [] && !IsSpace(t[0])
    ensures SplitRuns(t) == [[t[0]] + SplitRuns(t[1..])[0]] + SplitRuns(t[1..])[1..]
  {
  }

  /** Text that is empty or starts with white space begins with an empty piece. */
  lemma RunsAfterWord(rest: string)
    requires rest == [] || IsSpace(rest[0])
    ensures SplitRuns(rest) == [""] + (if rest == [] then [] else SplitRuns(TrimStart(rest)))
  {
  }

  /** Given a manifest whose line lists the archive with its own digest,
      verification passes; with another digest the plugin verifier fails and
      the main one warns; with no listing both skip. */
  lemma VerificationScenarios(digest: string, other: string, filename: string, rest: string)
    requires digest != "" && NoSpace(digest) && filename != "" && NoSpace(filename)
    requires other != digest
    ensures VerifyChecksum(Ok(digest + "  " + filename + "\n" + rest), filename, digest) == Passed
    ensures VerifyPluginChecksum(Ok(digest + "  " + filename + "\n" + rest), filename, digest) == Passed
    ensures VerifyPluginChecksum(Ok(digest + "  " + filename + "\n" + rest), filename, other).Fatal?
    ensures VerifyChecksum(Ok(digest + "  " + filename + "\n" + rest), filename, other).Warned?
    ensures VerifyChecksum(Ok(""), filename, other) == Warned(NotListed)
    ensures VerifyPluginChecksum(Ok(""), filename, other) == Warned(NotListed)
  {
    ListedLineDecides(digest, filename, rest);
    ListedDigestDecides(digest + "  " + filename + "\n" + rest, filename, digest, other);
    EmptyManifestNotListed(filename, other);
  }

  /** Once the manifest lists `digest`, the archive's own digest decides both
      verdicts. */
  lemma ListedDigestDecides(manifest: string, filename: string, digest: string, other: string)
    requires ExpectedDigest(manifest, filename) == Some(digest) && other != digest
    ensures VerifyChecksum(Ok(manifest), filename, digest) == Passed
    ensures VerifyPluginChecksum(Ok(manifest), filename, digest) == Passed
    ensures VerifyPluginChecksum(Ok(manifest), filename, other).Fatal?
    ensures VerifyChecksum(Ok(manifest), filename, other).Warned?
  {
  }

  /** An empty manifest lists nothing, so both verifiers skip. */
  lemma EmptyManifestNotListed(filename: string, actual: string)
    ensures VerifyChecksum(Ok(""), filename, actual) == Warned(NotListed)
    ensures VerifyPluginChecksum(Ok(""), filename, actual) == Warned(NotListed)
  {
    assert Split("", '\n') == [""];
    assert Fields("") == [""] by {
      assert Trim("") == "";
    }
  }
}

=== FILE: installer.dfy ===
/** The control flow of `installRelicta`, `downloadPlugin` and
    `installPlugins` (src/installer.ts). Everything the installer asks of the
    outside world is a field of `Host`: the tool cache, downloads, reading a
    downloaded file as text, the SHA-256 digest and the two extractors. */
module Installer {
  import opened Wrappers
  import opened Text
  import opened Platform
  import opened Artifacts
  import opened Checksums
  import opened Layout

  type Bytes = seq<bv8>

  datatype Host = Host(
    hostOs: string,                                // process.platform
    hostArch: string,                              // process.arch
    cached: string -> Option<seq<Entry>>,          // tc.find('relicta', version)
    fetch: string -> Result<Bytes, string>,        // tc.downloadTool(url)
    readText: Bytes -> string,                     // fs.readFileSync(path, 'utf-8')
    digest: Bytes -> string,                       // SHA-256 as lower-case hex
    untar: Bytes -> Result<seq<Entry>, string>,    // tc.extractTar
    unzip: Bytes -> Result<seq<Entry>, string>,    // tc.extractZip
    lowerCase: string -> string)                   // String.prototype.toLowerCase

  /** Where an installed binary was found. */
  datatype Origin = FromCache | FromArchive
  datatype Installed = Installed(origin: Origin, path: seq<string>)

  /** The manifest as the verifiers see it: a download failure, or its text. */
  function FetchManifest(host: Host, url: string): Result<string, string> {
    match host.fetch(url)
    case Err(e) => Err(e)
    case Ok(bytes) => Ok(host.readText(bytes))
  }

  /** Extraction dispatched on the archive's suffix, as `installRelicta` does. */
  function ExtractArchive(host: Host, filename: string, archive: Bytes): (r: Result<seq<Entry>, string>)
    ensures EndsWith(filename, ".tar.gz") ==> r == host.untar(archive)
    ensures !EndsWith(filename, ".tar.gz") && EndsWith(filename, ".zip") ==> r == host.unzip(archive)
    ensures !EndsWith(filename, ".tar.gz") && !EndsWith(filename, ".zip") ==>
              r == Err("Unsupported archive format: " + filename)
  {
    if EndsWith(filename, ".tar.gz") then host.untar(archive)
    else if EndsWith(filename, ".zip") then host.unzip(archive)
    else Err("Unsupported archive format: " + filename)
  }

  /** The archive-download half of `installRelicta`, for a detected platform:
      it succeeds exactly when the archive downloads, extracts and holds the
      binary, and the first of these steps to fail gives the error. */
  function InstallFresh(version: string, p: Platform, host: Host): (r: Result<Installed, string>)
    ensures r.Ok? ==> r.value.origin == FromArchive
    ensures r.Ok? ==> host.fetch(GetDownloadInfo(version, p).url).Ok?
    ensures r.Ok? ==>
              var tree := ExtractArchive(host, MainFileName(p), host.fetch(GetDownloadInfo(version, p).url).value);
              tree.Ok? && FindBinary(tree.value, BinaryName(p)) == Some(r.value.path)
    ensures host.fetch(GetDownloadInfo(version, p).url).Err? ==>
              r == Err(host.fetch(GetDownloadInfo(version, p).url).error)
    ensures host.fetch(GetDownloadInfo(version, p).url).Ok? ==>
              var tree := ExtractArchive(host, MainFileName(p), host.fetch(GetDownloadInfo(version, p).url).value);
              && (tree.Err? ==> r == Err(tree.error))
              && (tree.Ok? && FindBinary(tree.value, BinaryName(p)).Some? ==>
                    r == Ok(Installed(FromArchive, FindBinary(tree.value, BinaryName(p)).value)))
  {
    var info := GetDownloadInfo(version, p);
    match host.fetch(info.url)
    case Err(e) => Err(e)
    case Ok(archive) =>
      // The verdict is computed and then dropped: the main verifier never throws.
      var _ := VerifyChecksum(FetchManifest(host, info.checksumUrl), info.filename, host.digest(archive));
      match ExtractArchive(host, info.filename, archive)
      case Err(e) => Err(e)
      case Ok(tree) =>
        match FindBinary(tree, BinaryName(p))
        case None => Err("Binary not found in extracted archive")
        case Some(path) => Ok(Installed(FromArchive, path))
  }

  /** `installRelicta`. Platform detection runs on the cache-hit path and on
      the download path alike, so an unsupported host fails either way; a
      cached tree is used only when it holds the binary. */
  function InstallRelicta(version: string, host: Host): (r: Result<Installed, string>)
    ensures DetectPlatform(host.hostOs, host.hostArch).Err? ==> r.Err?
    ensures r.Ok? && r.value.origin == FromCache ==>
              host.cached(version).Some?
              && FindBinary(host.cached(version).value, BinaryName(DetectPlatform(host.hostOs, host.hostArch).value))
                 == Some(r.value.path)
    ensures DetectPlatform(host.hostOs, host.hostArch).Ok? ==>
              var p := DetectPlatform(host.hostOs, host.hostArch).value;
              if host.cached(version).Some? && FindBinary(host.cached(version).value, BinaryName(p)).Some?
              then r.Ok? && r.value.origin == FromCache
              else r == InstallFresh(version, p, host)
  {
    match DetectPlatform(host.hostOs, host.hostArch)
    case Err(e) => Err(ErrorMessage(e))
    case Ok(p) =>
      var hit := if host.cached(version).Some? then FindBinary(host.cached(version).value, BinaryName(p)) else None;
      if hit.Some? then Ok(Installed(FromCache, hit.value))
      else InstallFresh(version, p, host)
  }

  /** The archive name the main tool's installer downloads always has a
      supported suffix, so the unsupported-format error never fires, and a
      tarball is used exactly off Windows. */
  lemma MainArchiveAlwaysSupported(host: Host, p: Platform, archive: Bytes)
    ensures p.os != Windows ==> ExtractArchive(host, MainFileName(p), archive) == host.untar(archive)
    ensures p.os == Windows ==> ExtractArchive(host, MainFileName(p), archive) == host.unzip(archive)
  {
    MainFileNameShape(p);
  }

  /** The manifest and the digest never change what `installRelicta`
      returns: the main binary is installed whether its checksum matches,
      mismatches, is unlisted or cannot be fetched. `manifest` replaces the
      download of every `checksums.txt`, whatever it yields. */
  lemma InstallIgnoresChecksum(version: string, host: Host, readText: Bytes -> string, digest: Bytes -> string,
                               manifest: Result<Bytes, string>)
    ensures InstallRelicta(version, host)
            == InstallRelicta(version, host.(readText := readText, digest := digest,
                                             fetch := u => if EndsWith(u, "/" + ManifestName) then manifest else host.fetch(u)))
  {
    var other := host.(readText := readText, digest := digest,
                       fetch := u => if EndsWith(u, "/" + ManifestName) then manifest else host.fetch(u));
    if DetectPlatform(host.hostOs, host.hostArch).Ok? {
      var p := DetectPlatform(host.hostOs, host.hostArch).value;
      var url := GetDownloadInfo(version, p).url;
      ArchiveUrlIsNotManifest(url, p);
      FreshIgnoresChecksum(version, p, host, other);
    }
  }

  /** Two hosts that agree on the archive download and on the extractors
      install the same way, whatever they do with the manifest and digest. */
  lemma FreshIgnoresChecksum(version: string, p: Platform, host: Host, other: Host)
    requires other.fetch(GetDownloadInfo(version, p).url) == host.fetch(GetDownloadInfo(version, p).url)
    requires other.untar == host.untar && other.unzip == host.unzip
    ensures InstallFresh(version, p, host) == InstallFresh(version, p, other)
  {
  }

  /** A URL naming the main archive never names the manifest. */
  lemma ArchiveUrlIsNotManifest(url: string, p: Platform)
    requires EndsWith(url, "/" + MainFileName(p))
    ensures !EndsWith(url, "/" + ManifestName)
  {
    var f := MainFileName(p);
    MainFileNameShape(p);
    assert url[|url| - 1] == ("/" + f)[|f|] == f[|f| - 1];
    assert f[|f| - 1] == 'p' || f[|f| - 1] == 'z';
    assert ("/" + ManifestName)[|ManifestName|] == 't';
  }

  // Plugins.

  datatype PluginInstalled = PluginInstalled(target: string, source: seq<string>)

  /** `downloadPlugin`: fetch `<name>_<os>_<arch>` from the plugin's own
      release, verify it (a mismatch is fatal), extract it (anything but
      `.tar.gz` is unzipped), locate the binary and name it
      `relicta-<name>[.exe]`. */
  function DownloadPlugin(version: string, name: string, p: Platform, host: Host): (r: Result<PluginInstalled, string>)
    ensures r.Ok? ==> r.value.target == InstalledPluginName(name, p)
    ensures host.fetch(PluginUrl(name, version, PluginArchiveName(name, p))).Err? ==>
              r == Err(host.fetch(PluginUrl(name, version, PluginArchiveName(name, p))).error)
    ensures host.fetch(PluginUrl(name, version, PluginArchiveName(name, p))).Ok? ==>
              var archive := host.fetch(PluginUrl(name, version, PluginArchiveName(name, p))).value;
              var verdict := VerifyPluginChecksum(FetchManifest(host, PluginChecksumUrl(name, version)),
                                                  PluginArchiveName(name, p), host.digest(archive));
              var tree := if p.os == Windows then host.unzip(archive) else host.untar(archive);
              && (verdict.Fatal? ==> r == Err(verdict.message))
              && (!verdict.Fatal? && tree.Err? ==> r == Err(tree.error))
              && (!verdict.Fatal? && tree.Ok? && FindPluginBinary(tree.value, name, BinaryExt(p), host.lowerCase).Some? ==>
                    r == Ok(PluginInstalled(InstalledPluginName(name, p),
                                            FindPluginBinary(tree.value, name, BinaryExt(p), host.lowerCase).value)))
    ensures r.Ok? ==> host.fetch(PluginUrl(name, version, PluginArchiveName(name, p))).Ok?
    ensures r.Ok? ==>
              var archive := host.fetch(PluginUrl(name, version, PluginArchiveName(name, p))).value;
              !VerifyPluginChecksum(FetchManifest(host, PluginChecksumUrl(name, version)),
                                    PluginArchiveName(name, p), host.digest(archive)).Fatal?
    ensures r.Ok? ==>
              var archive := host.fetch(PluginUrl(name, version, PluginArchiveName(name, p))).value;
              var tree := if p.os == Windows then host.unzip(archive) else host.untar(archive);
              tree.Ok? && FindPluginBinary(tree.value, name, BinaryExt(p), host.lowerCase) == Some(r.value.source)
  {
    var filename := PluginArchiveName(name, p);
    match host.fetch(PluginUrl(name, version, filename))
    case Err(e) => Err(e)
    case Ok(archive) =>
      match VerifyPluginChecksum(FetchManifest(host, PluginChecksumUrl(name, version)), filename, host.digest(archive))
      case Fatal(m) => Err(m)
      case _ =>
        var tree := if EndsWith(filename, ".tar.gz") then host.untar(archive) else host.unzip(archive);
        match tree
        case Err(e) => Err(e)
        case Ok(entries) =>
          match FindPluginBinary(entries, name, BinaryExt(p), host.lowerCase)
          case None => Err("Binary not found in extracted archive for " + name)
          case Some(path) => Ok(PluginInstalled(InstalledPluginName(name, p), path))
  }

  /** The outcome of one plugin: installed, or the warning it was downgraded to. */
  datatype PluginReport = PluginReport(name: string, outcome: Result<PluginInstalled, string>)

  /** The `for … of` loop of `installPlugins`: each plugin is attempted in list
      order and its failure is caught, so every plugin gets a report. */
  function InstallEach(version: string, plugins: seq<string>, p: Platform, host: Host): (rs: seq<PluginReport>)
    ensures |rs| == |plugins|
    ensures forall i :: 0 <= i < |plugins| ==>
              rs[i] == PluginReport(plugins[i], DownloadPlugin(version, plugins[i], p, host))
  {
    if plugins == [] then []
    else [PluginReport(plugins[0], DownloadPlugin(version, plugins[0], p, host))]
         + InstallEach(version, plugins[1..], p, host)
  }

  /** `installPlugins`: an empty list returns at once (the platform is not
      even detected); otherwise an unsupported host is the only error that
      escapes, and per-plugin errors become warnings. */
  function InstallPlugins(version: string, plugins: seq<string>, host: Host): (r: Result<seq<PluginReport>, string>)
    ensures plugins == [] ==> r == Ok([])
    ensures r.Err? <==> plugins != [] && DetectPlatform(host.hostOs, host.hostArch).Err?
    ensures r.Ok? ==> |r.value| == |plugins|
                      && forall i :: 0 <= i < |plugins| ==> r.value[i].name == plugins[i]
    ensures r.Ok? && plugins != [] ==>
              r.value == InstallEach(version, plugins, DetectPlatform(host.hostOs, host.hostArch).value, host)
    ensures r.Ok? && plugins != [] ==>
              forall i :: 0 <= i < |plugins| ==>
                r.value[i].outcome == DownloadPlugin(version, plugins[i], DetectPlatform(host.hostOs, host.hostArch).value, host)
  {
    if |plugins| == 0 then Ok([])
    else
      match DetectPlatform(host.hostOs, host.hostArch)
      case Err(e) => Err(ErrorMessage(e))
      case Ok(p) => Ok(InstallEach(version, plugins, p, host))
  }

  /** Per-plugin isolation: what happens to one plugin does not depend on the
      plugins listed before or after it. */
  lemma {:induction false} PluginIsolation(version: string, before: seq<string>, name: string, after: seq<string>, host: Host)
    requires DetectPlatform(host.hostOs, host.hostArch).Ok?
    ensures var all := InstallPlugins(version, before + [name] + after, host);
            var alone := InstallPlugins(version, [name], host);
            all.Ok? && alone.Ok? && all.value[|before|] == alone.value[0]
  {
    var p := DetectPlatform(host.hostOs, host.hostArch).value;
    var all := before + [name] + after;
    assert all[|before|] == name;
    var rs := InstallEach(version, all, p, host);
    assert rs[|before|] == PluginReport(name, DownloadPlugin(version, name, p, host));
    var one := InstallEach(version, [name], p, host);
    assert one[0] == PluginReport(name, DownloadPlugin(version, name, p, host));
  }

  /** Three plugins of which the second cannot be downloaded: the first and
      third are still installed, and the call itself does not fail. */
  lemma MiddlePluginFails(version: string, a: string, b: string, c: string, host: Host)
    requires DetectPlatform(host.hostOs, host.hostArch).Ok?
    requires var p := DetectPlatform(host.hostOs, host.hostArch).value;
      && DownloadPlugin(version, a, p, host).Ok?
      && host.fetch(PluginUrl(b, version, PluginArchiveName(b, p))).Err?
      && DownloadPlugin(version, c, p, host).Ok?
    ensures var r := InstallPlugins(version, [a, b, c], host);
      && r.Ok?
      && r.value[0].outcome.Ok? && r.value[1].outcome.Err? && r.value[2].outcome.Ok?
  {
    var p := DetectPlatform(host.hostOs, host.hostArch).value;
    var rs := InstallEach(version, [a, b, c], p, host);
    assert rs[1] == PluginReport(b, DownloadPlugin(version, b, p, host));
  }

  /** A plugin whose archive is not listed in its manifest, or whose manifest
      cannot be fetched for a reason other than a mismatch, is still installed
      once it extracts and holds its binary: only a mismatch blocks it. */
  lemma UnverifiedPluginStillInstalls(version: string, name: string, p: Platform, host: Host)
    ensures var fetched := host.fetch(PluginUrl(name, version, PluginArchiveName(name, p)));
            var manifest := FetchManifest(host, PluginChecksumUrl(name, version));
            var tree := if fetched.Err? then Err("") else if p.os == Windows then host.unzip(fetched.value) else host.untar(fetched.value);
            && fetched.Ok?
            && ((manifest.Ok? && ExpectedDigest(manifest.value, PluginArchiveName(name, p)).None?)
                || (manifest.Err? && !Contains(manifest.error, MismatchPhrase)))
            && tree.Ok? && FindPluginBinary(tree.value, name, BinaryExt(p), host.lowerCase).Some?
            ==> DownloadPlugin(version, name, p, host).Ok?
  {
  }

  /** A plugin whose manifest lists a different digest is not installed. */
  lemma PluginMismatchNotInstalled(version: string, name: string, p: Platform, host: Host)
    requires host.fetch(PluginUrl(name, version, PluginArchiveName(name, p))).Ok?
    requires FetchManifest(host, PluginChecksumUrl(name, version)).Ok?
    requires var archive := host.fetch(PluginUrl(name, version, PluginArchiveName(name, p))).value;
             var expected := ExpectedDigest(FetchManifest(host, PluginChecksumUrl(name, version)).value, PluginArchiveName(name, p));
             expected.Some? && expected.value != host.digest(archive)
    ensures DownloadPlugin(version, name, p, host).Err?
  {
  }
}

=== FILE: layout.dfy ===
/** Locating a binary inside an extracted archive (`findBinary` and
    `findPluginBinary` in src/installer.ts). The file system is an immutable
    tree; a directory listing keeps the order `readdirSync` returns. Paths are
    returned relative to the extraction root, as a sequence of names. */
module Layout {
  import opened Wrappers
  import opened Text
  import opened Seqs

  /** A directory entry is a regular file, a directory, or something else
      that is neither (a socket, a symbolic link, ...). An `Other` entry is
      taken to exist: a broken symbolic link is not distinguished. */
  datatype Node = File | Folder(entries: seq<Entry>) | Other
  datatype Entry = Entry(name: string, node: Node)

  /** `fs.existsSync(path.join(dir, name))` for a single-segment name on a
      case-sensitive file system where every entry, links included, resolves:
      the name must match an entry exactly. */
  predicate Exists(entries: seq<Entry>, name: string) {
    exists i | 0 <= i < |entries| :: entries[i].name == name
  }

  /** A relative path names an existing entry of the tree. */
  predicate Resolves(entries: seq<Entry>, path: seq<string>)
    decreases path
  {
    if |path| == 0 then false
    else if |path| == 1 then Exists(entries, path[0])
    else exists i | 0 <= i < |entries| ::
      entries[i].name == path[0] && entries[i].node.Folder?
      && Resolves(entries[i].node.entries, path[1..])
  }

  /** A subdirectory `findBinary` accepts: its name starts with `relicta` and
      it holds the binary. */
  predicate IsToolDir(e: Entry, binaryName: string) {
    e.node.Folder? && StartsWith(e.name, "relicta") && Exists(e.node.entries, binaryName)
  }

  /** `findBinary`: `<root>/<binaryName>` when it exists, otherwise the binary
      inside the first `relicta…` subdirectory, in listing order, that holds it. */
  function FindBinary(root: seq<Entry>, binaryName: string): (r: Option<seq<string>>)
    ensures r == Some([binaryName]) <==> Exists(root, binaryName)
    ensures r.Some? && !Exists(root, binaryName) ==>
              exists i :: 0 <= i < |root| && IsToolDir(root[i], binaryName)
                && r.value == [root[i].name, binaryName]
                && forall j :: 0 <= j < i ==> !IsToolDir(root[j], binaryName)
    ensures r.None? <==> !Exists(root, binaryName) && forall i :: 0 <= i < |root| ==> !IsToolDir(root[i], binaryName)
    ensures r.Some? ==> Resolves(root, r.value) && r.value[|r.value| - 1] == binaryName
  {
    if Exists(root, binaryName) then Some([binaryName])
    else
      match FirstIndex(root, e => IsToolDir(e, binaryName))
      case None => None
      case Some(i) =>
        assert [root[i].name, binaryName][1..] == [binaryName];
        Some([root[i].name, binaryName])
  }

  /** A listing entry `findPluginBinary` accepts: a file whose lower-cased name
      is the lower-cased plugin name or binary name, or any directory (whatever
      its name) that holds the exact binary name. `lower` is JavaScript's
      `toLowerCase`, whose full Unicode case mapping is not modelled. */
  predicate IsPluginCandidate(e: Entry, pluginName: string, binaryName: string, lower: string -> string) {
    || (e.node.File? && (lower(e.name) == lower(pluginName) || lower(e.name) == lower(binaryName)))
    || (e.node.Folder? && Exists(e.node.entries, binaryName))
  }

  /** `findPluginBinary`: `<root>/<plugin><ext>` when it exists, otherwise the
      first candidate entry in listing order. `<plugin><ext>` is taken as one
      path segment, as it is for every plugin name that holds no `/` and is
      neither empty, `.` nor `..`. */
  function FindPluginBinary(root: seq<Entry>, pluginName: string, binaryExt: string, lower: string -> string)
    : (r: Option<seq<string>>)
    ensures r == Some([pluginName + binaryExt]) <== Exists(root, pluginName + binaryExt)
    ensures r.None? <==>
              && !Exists(root, pluginName + binaryExt)
              && forall i :: 0 <= i < |root| ==> !IsPluginCandidate(root[i], pluginName, pluginName + binaryExt, lower)
    ensures r.Some? && !Exists(root, pluginName + binaryExt) ==>
              exists i :: 0 <= i < |root| && IsPluginCandidate(root[i], pluginName, pluginName + binaryExt, lower)
                && (forall j :: 0 <= j < i ==> !IsPluginCandidate(root[j], pluginName, pluginName + binaryExt, lower))
                && r.value == (if root[i].node.File? then [root[i].name]
                               else [root[i].name, pluginName + binaryExt])
    ensures r.Some? ==> Resolves(root, r.value)
  {
    var binaryName := pluginName + binaryExt;
    if Exists(root, binaryName) then Some([binaryName])
    else
      match FirstIndex(root, e => IsPluginCandidate(e, pluginName, binaryName, lower))
      case None => None
      case Some(i) =>
        if root[i].node.File? then Some([root[i].name])
        else
          assert [root[i].name, binaryName][1..] == [binaryName];
          Some([root[i].name, binaryName])
  }
}

=== FILE: platform.dfy ===
/** Host platform detection (`detectPlatform` in src/installer.ts): the host's
    Node.js `process.platform` / `process.arch` strings are mapped to the
    release tool's naming convention. The host strings are parameters. */
module Platform {
  import opened Wrappers

  datatype Os = Darwin | Linux | Windows
  datatype Arch = X86_64 | Aarch64
  datatype Platform = Platform(os: Os, arch: Arch)

  datatype PlatformError = UnsupportedOs(os: string) | UnsupportedArch(arch: string)

  /** The release tool's name for an operating system. */
  function OsName(os: Os): string {
    match os
    case Darwin => "Darwin"
    case Linux => "Linux"
    case Windows => "Windows"
  }

  /** The release tool's name for a CPU architecture. */
  function ArchName(arch: Arch): string {
    match arch
    case X86_64 => "x86_64"
    case Aarch64 => "aarch64"
  }

  /** The Node.js identifiers the action supports. */
  const HostOsIds: seq<string> := ["darwin", "linux", "win32"]
  const HostArchIds: seq<string> := ["x64", "arm64"]

  function ParseOs(id: string): Option<Os> {
    if id == "darwin" then Some(Darwin)
    else if id == "linux" then Some(Linux)
    else if id == "win32" then Some(Windows)
    else None
  }

  function ParseArch(id: string): Option<Arch> {
    if id == "x64" then Some(X86_64)
    else if id == "arm64" then Some(Aarch64)
    else None
  }

  /** The Node.js identifier of each supported operating system: the inverse
      of the OS mapping. */
  function HostOsId(os: Os): string {
    match os
    case Darwin => "darwin"
    case Linux => "linux"
    case Windows => "win32"
  }

  function HostArchId(arch: Arch): string {
    match arch
    case X86_64 => "x64"
    case Aarch64 => "arm64"
  }

  /** Maps the host identifiers to a platform, checking the OS before the CPU:
      an unsupported OS is reported even when the CPU is unsupported too. */
  function DetectPlatform(hostOs: string, hostArch: string): (r: Result<Platform, PlatformError>)
    ensures r.Ok? <==> hostOs in HostOsIds && hostArch in HostArchIds
    ensures r.Ok? ==> HostOsId(r.value.os) == hostOs && HostArchId(r.value.arch) == hostArch
    ensures hostOs !in HostOsIds ==> r == Err(UnsupportedOs(hostOs))
    ensures hostOs in HostOsIds && hostArch !in HostArchIds ==> r == Err(UnsupportedArch(hostArch))
  {
    match ParseOs(hostOs)
    case None => Err(UnsupportedOs(hostOs))
    case Some(os) =>
      match ParseArch(hostArch)
      case None => Err(UnsupportedArch(hostArch))
      case Some(arch) => Ok(Platform(os, arch))
  }

  /** Every platform is detected from its own host identifiers, so the
      mapping is a bijection between the supported identifier pairs and the
      six platforms. */
  lemma DetectHostIds(p: Platform)
    ensures DetectPlatform(HostOsId(p.os), HostArchId(p.arch)) == Ok(p)
  {
  }

  /** The names are pairwise distinct, so a platform is determined by its names. */
  lemma NamesInjective(p: Platform, q: Platform)
    requires OsName(p.os) == OsName(q.os) && ArchName(p.arch) == ArchName(q.arch)
    ensures p == q
  {
  }

  function ErrorMessage(e: PlatformError): string {
    match e
    case UnsupportedOs(os) => "Unsupported OS: " + os
    case UnsupportedArch(arch) => "Unsupported architecture: " + arch
  }
}

=== FILE: runner.dfy ===
/** The command runner of src/runner.ts: the common argument list, the
    environment handed to the tool, the argument vectors a command expands
    to, the exit-code rule of `executeCommand`, and where the outputs are
    scraped from. Processes are an oracle; the temporary file holding inline
    configuration is represented by its path alone. */
module Runner {
  import opened Wrappers
  import opened Text
  import opened Scraper

  /** `ActionInputs` (src/types.ts); an optional field that is absent is `None`. */
  datatype ActionInputs = ActionInputs(
    version: string,
    command: string,
    githubToken: string,
    config: Option<string>,
    configContent: Option<string>,
    autoApprove: bool,
    dryRun: bool,
    workingDirectory: string,
    plugins: seq<string>)

  /** JavaScript truthiness of an optional string: present and not empty. */
  predicate Truthy(o: Option<string>) {
    o.Some? && o.value != ""
  }

  /** `tail` is a suffix of `s`. */
  predicate EndsWithAll<T(==)>(s: seq<T>, tail: seq<T>) {
    |tail| <= |s| && s[|s| - |tail|..] == tail
  }

  const ConfigFlag := "--config"
  const DryRunFlag := "--dry-run"
  const YesFlag := "--yes"

  // Common arguments.

  /** The configuration file the tool is pointed at: the temporary file that
      holds inline content takes precedence over a configured path. */
  function ConfigPath(inputs: ActionInputs, tempPath: string): Option<string> {
    if Truthy(inputs.configContent) then Some(tempPath)
    else if Truthy(inputs.config) then Some(inputs.config.value)
    else None
  }

  /** The arguments every step ends with: `--config <path>` when there is a
      configuration file, then `--dry-run` last exactly when `dryRun`. */
  function CommonArgs(inputs: ActionInputs, tempPath: string): (args: seq<string>)
    ensures |args| == (if ConfigPath(inputs, tempPath).Some? then 2 else 0) + (if inputs.dryRun then 1 else 0)
    ensures Truthy(inputs.configContent) ==> args[..2] == [ConfigFlag, tempPath]
    ensures !Truthy(inputs.configContent) && Truthy(inputs.config) ==> args[..2] == [ConfigFlag, inputs.config.value]
    ensures ConfigPath(inputs, tempPath).None? ==> ConfigFlag !in args
    ensures inputs.dryRun ==> args[|args| - 1] == DryRunFlag
    ensures DryRunFlag in args ==> inputs.dryRun || ConfigPath(inputs, tempPath) == Some(DryRunFlag)
  {
    var config :=
      if Truthy(inputs.configContent) then [ConfigFlag, tempPath]
      else if Truthy(inputs.config) then [ConfigFlag, inputs.config.value]
      else [];
    config + (if inputs.dryRun then [DryRunFlag] else [])
  }

  /** What the tool reads back from a common argument list. */
  datatype CommonSettings = CommonSettings(config: Option<string>, dryRun: bool)

  /** The tool's reading of the common arguments: an optional leading
      `--config <path>`, then nothing or exactly `--dry-run`. */
  function DecodeCommon(args: seq<string>): Option<CommonSettings> {
    var config := if |args| >= 2 && args[0] == ConfigFlag then Some(args[1]) else None;
    var rest := if config.Some? then args[2..] else args;
    if rest == [] then Some(CommonSettings(config, false))
    else if rest == [DryRunFlag] then Some(CommonSettings(config, true))
    else None
  }

  /** The common arguments say exactly which configuration file to use and
      whether the run is a dry run, whatever the paths look like. */
  lemma CommonArgsDecode(inputs: ActionInputs, tempPath: string)
    ensures DecodeCommon(CommonArgs(inputs, tempPath))
            == Some(CommonSettings(ConfigPath(inputs, tempPath), inputs.dryRun))
  {
    var args := CommonArgs(inputs, tempPath);
    if ConfigPath(inputs, tempPath).Some? {
      assert args[0] == ConfigFlag && args[1] == ConfigPath(inputs, tempPath).value;
      assert args[2..] == (if inputs.dryRun then [DryRunFlag] else []);
    } else {
      assert |args| <= 1;
    }
  }

  // Environment.

  const TokenVar := "GITHUB_TOKEN"
  const DryRunVar := "RELEASE_PILOT_DRY_RUN"

  /** The inherited environment with `GITHUB_TOKEN` set to the token and, in a
      dry run only, `RELEASE_PILOT_DRY_RUN` set to `true`. */
  function Environment(inputs: ActionInputs, inherited: map<string, string>): (env: map<string, string>)
    ensures env.Keys == inherited.Keys + {TokenVar} + (if inputs.dryRun then {DryRunVar} else {})
    ensures env[TokenVar] == inputs.githubToken
    ensures inputs.dryRun ==> env[DryRunVar] == "true"
    ensures forall k :: k in inherited && k != TokenVar && (inputs.dryRun ==> k != DryRunVar) ==>
              env[k] == inherited[k]
  {
    var env := inherited[TokenVar := inputs.githubToken];
    if inputs.dryRun then env[DryRunVar := "true"] else env
  }

  /** Outside a dry run only the token is touched: an inherited
      `RELEASE_PILOT_DRY_RUN` passes through unchanged. */
  lemma EnvironmentOutsideDryRun(inputs: ActionInputs, inherited: map<string, string>)
    requires !inputs.dryRun
    ensures Environment(inputs, inherited) == inherited[TokenVar := inputs.githubToken]
  {
  }

  // Steps.

  /** The argument vectors to run, in order, and whether the outputs are
      scraped from the last one's standard output. */
  datatype Plan = Plan(steps: seq<seq<string>>, scrapeLast: bool)

  /** The steps of the `full` workflow. */
  const FullSequence: seq<string> := ["plan", "bump", "notes", "approve", "publish"]

  /** The commands that run as a single step named by the command itself. */
  predicate IsSingleStep(c: string) {
    c == "plan" || c == "bump" || c == "notes" || c == "publish"
  }

  /** Every step is its own words followed by the common arguments. */
  predicate EndsWithCommon(step: seq<string>, common: seq<string>) {
    |step| > |common| && EndsWithAll(step, common)
  }

  lemma AppendCommon(head: seq<string>, common: seq<string>)
    requires head != []
    ensures EndsWithCommon(head + common, common)
  {
    assert (head + common)[|head|..] == common;
  }

  /** The approve step of the `full` workflow. */
  function FullApprove(autoApprove: bool, common: seq<string>): (step: seq<string>)
    ensures EndsWithCommon(step, common) && step[0] == "approve"
  {
    if autoApprove then
      AppendCommon(["approve", YesFlag], common);
      ["approve", YesFlag] + common
    else
      AppendCommon(["approve"], common);
      ["approve"] + common
  }

  /** The standalone `approve` command: `--yes` is put in front of the common
      arguments, then `approve` in front of that. */
  function StandaloneApprove(autoApprove: bool, common: seq<string>): (step: seq<string>)
    ensures EndsWithCommon(step, common) && step[0] == "approve"
  {
    var approveArgs := if autoApprove then [YesFlag] + common else common;
    assert ["approve"] + approveArgs == (if autoApprove then ["approve", YesFlag] else ["approve"]) + common;
    AppendCommon(if autoApprove then ["approve", YesFlag] else ["approve"], common);
    ["approve"] + approveArgs
  }

  /** `full`: plan, bump, notes, approve and publish, scraping the last. */
  function FullPlan(autoApprove: bool, common: seq<string>): (p: Plan)
    ensures |p.steps| == 5 && p.scrapeLast
    ensures forall i :: 0 <= i < 5 ==> EndsWithCommon(p.steps[i], common) && p.steps[i][0] == FullSequence[i]
  {
    AppendCommon(["plan"], common);
    AppendCommon(["bump"], common);
    AppendCommon(["notes"], common);
    AppendCommon(["publish"], common);
    Plan([["plan"] + common, ["bump"] + common, ["notes"] + common,
          FullApprove(autoApprove, common), ["publish"] + common], true)
  }

  /** `plan`, `bump`, `notes` or `publish` in any case: one step named by the
      command as written, scraped only when it is exactly `publish`. */
  function SinglePlan(command: string, common: seq<string>): (p: Plan)
    ensures |p.steps| == 1 && EndsWithCommon(p.steps[0], common) && p.steps[0][0] == command
    ensures p.scrapeLast <==> command == "publish"
  {
    AppendCommon([command], common);
    Plan([[command] + common], command == "publish")
  }

  /** Any other command, split on single spaces; nothing is scraped. */
  function PassthroughPlan(command: string, common: seq<string>): (p: Plan)
    ensures |p.steps| == 1 && EndsWithCommon(p.steps[0], common) && !p.scrapeLast
  {
    AppendCommon(Split(command, ' '), common);
    Plan([Split(command, ' ') + common], false)
  }

  /** The dispatch of `runReleasePilot` on the lower-cased command. */
  function Schedule(inputs: ActionInputs, common: seq<string>): (p: Plan)
    ensures 1 <= |p.steps| <= 5
    ensures forall i :: 0 <= i < |p.steps| ==> EndsWithCommon(p.steps[i], common)
  {
    var c := Lower(inputs.command);
    if c == "full" then FullPlan(inputs.autoApprove, common)
    else if IsSingleStep(c) then SinglePlan(inputs.command, common)
    else if c == "approve" then Plan([StandaloneApprove(inputs.autoApprove, common)], false)
    else PassthroughPlan(inputs.command, common)
  }

  /** Lower-casing leaves a string without upper-case letters as it is. */
  lemma LowerKeeps(s: string)
    requires forall k :: 0 <= k < |s| ==> !('A' <= s[k] <= 'Z')
    ensures Lower(s) == s
  {
  }

  /** The outputs are scraped exactly for `full`, in any case, and for the
      exact spelling `publish`. */
  lemma ScrapeOnlyFullOrPublish(inputs: ActionInputs, common: seq<string>)
    ensures Schedule(inputs, common).scrapeLast <==> Lower(inputs.command) == "full" || inputs.command == "publish"
  {
    if inputs.command == "publish" {
      LowerKeeps(inputs.command);
    }
  }

  /** `full` runs plan, bump, notes, approve and publish, each followed by the
      common arguments, with `--yes` right after `approve` when approving
      automatically. */
  lemma FullSteps(inputs: ActionInputs, common: seq<string>)
    requires Lower(inputs.command) == "full"
    ensures var yes := if inputs.autoApprove then [YesFlag] else [];
            Schedule(inputs, common).steps
            == [["plan"] + common, ["bump"] + common, ["notes"] + common,
                ["approve"] + yes + common, ["publish"] + common]
  {
    if inputs.autoApprove {
      assert ["approve", YesFlag] + common == ["approve"] + [YesFlag] + common;
    } else {
      assert ["approve"] + common == ["approve"] + [] + common;
    }
  }

  /** The standalone `approve` command: `--yes` right after `approve` when
      approving automatically, then the common arguments. */
  lemma ApproveSteps(inputs: ActionInputs, common: seq<string>)
    requires Lower(inputs.command) == "approve"
    ensures var yes := if inputs.autoApprove then [YesFlag] else [];
            Schedule(inputs, common) == Plan([["approve"] + yes + common], false)
  {
    if inputs.autoApprove {
      assert ["approve"] + ([YesFlag] + common) == ["approve"] + [YesFlag] + common;
    } else {
      assert ["approve"] + common == ["approve"] + [] + common;
    }
  }

  /** The approve step of `full` and the standalone `approve` command run the
      same argument vector. */
  lemma ApproveStepsAgree(inputs: ActionInputs, common: seq<string>)
    requires Lower(inputs.command) == "full"
    ensures Schedule(inputs, common).steps[3]
            == Schedule(inputs.(command := "approve"), common).steps[0]
  {
    LowerKeeps("approve");
    FullSteps(inputs, common);
    ApproveSteps(inputs.(command := "approve"), common);
  }

  /** A single-step command runs under its own spelling. */
  lemma SingleStepKeepsCase(inputs: ActionInputs, common: seq<string>)
    requires IsSingleStep(Lower(inputs.command))
    ensures Schedule(inputs, common).steps == [[inputs.command] + common]
  {
  }

  /** Upper-case `PUBLISH` runs the publish step under that spelling but is
      not scraped. */
  lemma UpperCasePublishNotScraped(inputs: ActionInputs, common: seq<string>)
    requires inputs.command == "PUBLISH"
    ensures Schedule(inputs, common) == Plan([["PUBLISH"] + common], false)
  {
    assert Lower(inputs.command) == "publish";
  }

  /** Any other command is split on single spaces and passed through: the
      pieces before the common arguments join back into the command, and no
      outputs are scraped. */
  lemma PassthroughRoundTrip(inputs: ActionInputs, common: seq<string>)
    requires var c := Lower(inputs.command); c != "full" && !IsSingleStep(c) && c != "approve"
    ensures var step := Schedule(inputs, common).steps[0];
            && Join(step[..|step| - |common|], ' ') == inputs.command
            && !Schedule(inputs, common).scrapeLast
  {
    var parts := Split(inputs.command, ' ');
    var step := parts + common;
    assert step[..|step| - |common|] == parts;
    JoinSplit(inputs.command, ' ');
  }

  /** Runs of spaces in a passthrough command become empty arguments. */
  lemma PassthroughKeepsEmptyArgs(inputs: ActionInputs, common: seq<string>)
    requires inputs.command == "deploy  now"
    ensures Schedule(inputs, common).steps == [["deploy", "", "now"] + common]
  {
    var c := inputs.command;
    assert Lower(c)[0] == 'd';
    assert c == "deploy" + [' '] + ("" + [' '] + "now");
    SplitAfterPiece("deploy", "" + [' '] + "now", ' ');
    SplitAfterPiece("", "now", ' ');
    SplitNoSeparator("now", ' ');
    assert Split(c, ' ') == ["deploy", "", "now"];
  }

  // Execution.

  /** One process started by `exec.exec`. */
  datatype Invocation = Invocation(binary: string, args: seq<string>, env: map<string, string>, cwd: string)

  /** How a process ended: its exit code and what it wrote to standard
      output, or a failure to start it at all. */
  datatype Exec = Exited(code: int, stdout: string) | SpawnFailed(message: string)

  datatype RunError = ExitCode(code: int) | SpawnError(message: string)

  /** The processes of one run: the `n`-th process started and how it ends. */
  type Processes = (nat, Invocation) -> Exec

  /** `executeCommand`: a zero exit yields the collected standard output;
      every other exit code, and a failure to start, is an error. */
  function ExecuteCommand(e: Exec): (r: Result<string, RunError>)
    ensures r.Ok? <==> e.Exited? && e.code == 0
    ensures r.Ok? ==> r.value == e.stdout
    ensures e.Exited? && e.code != 0 ==> r == Err(ExitCode(e.code))
  {
    match e
    case Exited(code, out) => if code != 0 then Err(ExitCode(code)) else Ok(out)
    case SpawnFailed(m) => Err(SpawnError(m))
  }

  /** The processes started and the result: the standard output of the last
      step, or the first error. */
  datatype Trace = Trace(invoked: seq<Invocation>, result: Result<string, RunError>)

  /** What the `k`-th step gives when it is run. */
  function StepOutcome(procs: Processes, binary: string, env: map<string, string>, cwd: string,
                       steps: seq<seq<string>>, k: nat): Result<string, RunError>
    requires k < |steps|
  {
    ExecuteCommand(procs(k, Invocation(binary, steps[k], env, cwd)))
  }

  /** The awaited steps from the `i`-th on; `out` is the output of the step
      before. */
  function RunFrom(procs: Processes, binary: string, env: map<string, string>, cwd: string,
                   steps: seq<seq<string>>, i: nat, out: string): (t: Trace)
    requires i <= |steps|
    ensures |t.invoked| <= |steps| - i
    ensures forall k :: 0 <= k < |t.invoked| ==> t.invoked[k] == Invocation(binary, steps[i + k], env, cwd)
    ensures forall k :: 0 <= k < |t.invoked| - 1 ==> ExecuteCommand(procs(i + k, t.invoked[k])).Ok?
    ensures t.result.Err? ==>
              |t.invoked| > 0 && t.result == ExecuteCommand(procs(i + |t.invoked| - 1, t.invoked[|t.invoked| - 1]))
    ensures t.result.Ok? ==> |t.invoked| == |steps| - i
    ensures t.result.Ok? && i < |steps| ==>
              t.result == ExecuteCommand(procs(|steps| - 1, t.invoked[|t.invoked| - 1]))
    decreases |steps| - i
  {
    if i == |steps| then Trace([], Ok(out))
    else
      var inv := Invocation(binary, steps[i], env, cwd);
      match ExecuteCommand(procs(i, inv))
      case Err(e) => Trace([inv], Err(e))
      case Ok(o) =>
        var rest := RunFrom(procs, binary, env, cwd, steps, i + 1, o);
        Trace([inv] + rest.invoked, rest.result)
  }

  /** The steps run one after another; the first failing step ends the run,
      and a successful run gives the last step's output. */
  function RunSteps(procs: Processes, binary: string, env: map<string, string>, cwd: string,
                    steps: seq<seq<string>>): (t: Trace)
    ensures |t.invoked| <= |steps|
    ensures forall k :: 0 <= k < |t.invoked| ==> t.invoked[k] == Invocation(binary, steps[k], env, cwd)
    ensures forall k :: 0 <= k < |t.invoked| - 1 ==> ExecuteCommand(procs(k, t.invoked[k])).Ok?
    ensures t.result.Err? ==>
              |t.invoked| > 0 && t.result == ExecuteCommand(procs(|t.invoked| - 1, t.invoked[|t.invoked| - 1]))
    ensures t.result.Ok? ==> |t.invoked| == |steps|
    ensures t.result.Ok? ==> forall k :: 0 <= k < |t.invoked| ==> ExecuteCommand(procs(k, t.invoked[k])).Ok?
    ensures t.result.Ok? && |steps| > 0 ==>
              t.result == ExecuteCommand(procs(|steps| - 1, t.invoked[|t.invoked| - 1]))
  {
    var t := RunFrom(procs, binary, env, cwd, steps, 0, "");
    assert forall k :: 0 <= k < |t.invoked| ==> t.invoked[k] == Invocation(binary, steps[0 + k], env, cwd);
    t
  }

  /** A step that fails after every earlier one succeeded is the last one
      started, and its error is the result. */
  lemma {:induction false} FirstFailureStops(procs: Processes, binary: string, env: map<string, string>, cwd: string,
                                             steps: seq<seq<string>>, k: nat)
    requires k < |steps|
    requires forall j :: 0 <= j < k ==> StepOutcome(procs, binary, env, cwd, steps, j).Ok?
    requires StepOutcome(procs, binary, env, cwd, steps, k).Err?
    ensures var t := RunSteps(procs, binary, env, cwd, steps);
            |t.invoked| == k + 1 && t.result == StepOutcome(procs, binary, env, cwd, steps, k)
  {
    var t := RunSteps(procs, binary, env, cwd, steps);
    var n := |t.invoked|;
    assert forall j :: 0 <= j < n ==>
             ExecuteCommand(procs(j, t.invoked[j])) == StepOutcome(procs, binary, env, cwd, steps, j);
    assert n > 0 ==> ExecuteCommand(procs(n - 1, t.invoked[n - 1]))
                       == StepOutcome(procs, binary, env, cwd, steps, n - 1);
    assert k < n;
    assert ExecuteCommand(procs(k, t.invoked[k])).Err?;
  }

  // The runner.

  /** The processes started and the outputs gathered, or the error that ended the run. */
  datatype RunOutcome = RunOutcome(invoked: seq<Invocation>, outputs: Result<ActionOutputs, RunError>)

  /** The outputs of a finished run: none when a step failed; otherwise the
      last step's scraped output, or nothing set. */
  function Gather(t: Trace, scrapeLast: bool): (r: Result<ActionOutputs, RunError>)
    ensures r.Err? <==> t.result.Err?
    ensures r.Err? ==> r.error == t.result.error
    ensures r.Ok? && !scrapeLast ==> r.value == NoOutputs
    ensures r.Ok? && scrapeLast ==> r.value == ParsePublishOutput(t.result.value)
  {
    match t.result
    case Err(e) => Err(e)
    case Ok(out) => Ok(if scrapeLast then ParsePublishOutput(out) else NoOutputs)
  }

  /** Running a plan: its steps start in order until one fails, and a
      successful run's outputs are gathered from the last step. */
  function RunPlan(procs: Processes, binary: string, env: map<string, string>, cwd: string,
                   plan: Plan): (r: RunOutcome)
    ensures |r.invoked| <= |plan.steps|
    ensures forall k :: 0 <= k < |r.invoked| ==>
              && r.invoked[k].binary == binary && r.invoked[k].args == plan.steps[k]
              && r.invoked[k].env == env && r.invoked[k].cwd == cwd
    ensures r.outputs.Err? ==>
              |r.invoked| > 0
              && ExecuteCommand(procs(|r.invoked| - 1, r.invoked[|r.invoked| - 1])) == Err(r.outputs.error)
    ensures r.outputs.Ok? ==>
              |r.invoked| == |plan.steps|
              && forall k :: 0 <= k < |r.invoked| ==> ExecuteCommand(procs(k, r.invoked[k])).Ok?
    ensures r.outputs.Ok? && !plan.scrapeLast ==> r.outputs.value == NoOutputs
  {
    var t := RunSteps(procs, binary, env, cwd, plan.steps);
    RunOutcome(t.invoked, Gather(t, plan.scrapeLast))
  }

  /** `runReleasePilot`: build the environment and the common arguments, run
      the command's steps, and scrape the last step's output when the command
      is `full` or exactly `publish`. */
  function RunReleasePilot(binary: string, inputs: ActionInputs, inherited: map<string, string>,
                           tempPath: string, procs: Processes): (r: RunOutcome)
    ensures |r.invoked| <= 5
    ensures forall k :: 0 <= k < |r.invoked| ==>
              && r.invoked[k].binary == binary
              && r.invoked[k].cwd == inputs.workingDirectory
              && r.invoked[k].env == Environment(inputs, inherited)
    ensures |r.invoked| <= |Schedule(inputs, CommonArgs(inputs, tempPath)).steps|
    ensures forall k :: 0 <= k < |r.invoked| ==>
              r.invoked[k].args == Schedule(inputs, CommonArgs(inputs, tempPath)).steps[k]
    ensures r.outputs.Err? ==>
              |r.invoked| > 0
              && ExecuteCommand(procs(|r.invoked| - 1, r.invoked[|r.invoked| - 1])) == Err(r.outputs.error)
    ensures r.outputs.Ok? ==>
              |r.invoked| > 0
              && |r.invoked| == |Schedule(inputs, CommonArgs(inputs, tempPath)).steps|
              && forall k :: 0 <= k < |r.invoked| ==> ExecuteCommand(procs(k, r.invoked[k])).Ok?
    ensures r.outputs.Ok? && !Schedule(inputs, CommonArgs(inputs, tempPath)).scrapeLast ==>
              r.outputs.value == NoOutputs
  {
    RunPlan(procs, binary, Environment(inputs, inherited), inputs.workingDirectory,
            Schedule(inputs, CommonArgs(inputs, tempPath)))
  }

  /** Every process started runs one step of the command's schedule. */
  lemma RunnerArgs(binary: string, inputs: ActionInputs, inherited: map<string, string>,
                   tempPath: string, procs: Processes)
    ensures var r := RunReleasePilot(binary, inputs, inherited, tempPath, procs);
            forall k :: 0 <= k < |r.invoked| ==> EndsWithCommon(r.invoked[k].args, CommonArgs(inputs, tempPath))
  {
  }

  /** Outputs come only from the standard output of a `publish` step that
      ends a successful run. */
  lemma OutputsOnlyFromPublish(binary: string, inputs: ActionInputs, inherited: map<string, string>,
                               tempPath: string, procs: Processes)
    ensures var r := RunReleasePilot(binary, inputs, inherited, tempPath, procs);
            r.outputs.Ok? && r.outputs.value != NoOutputs ==>
              var last := r.invoked[|r.invoked| - 1];
              && last.args[0] == "publish"
              && r.outputs.value == ParsePublishOutput(procs(|r.invoked| - 1, last).stdout)
  {
    var common := CommonArgs(inputs, tempPath);
    var plan := Schedule(inputs, common);
    var env := Environment(inputs, inherited);
    PlanScrapesLastStep(procs, binary, env, inputs.workingDirectory, plan);
    var r := RunReleasePilot(binary, inputs, inherited, tempPath, procs);
    assert r == RunPlan(procs, binary, env, inputs.workingDirectory, plan);
    if r.outputs.Ok? && r.outputs.value != NoOutputs {
      ScrapedStepIsPublish(inputs, common);
    }
  }

  /** A successful run of a scraping plan takes its outputs from the last
      step's standard output. */
  lemma PlanScrapesLastStep(procs: Processes, binary: string, env: map<string, string>, cwd: string, plan: Plan)
    ensures var r := RunPlan(procs, binary, env, cwd, plan);
            r.outputs.Ok? && plan.scrapeLast && |r.invoked| > 0 ==>
              r.outputs.value == ParsePublishOutput(procs(|r.invoked| - 1, r.invoked[|r.invoked| - 1]).stdout)
  {
    var t := RunSteps(procs, binary, env, cwd, plan.steps);
    var n := |t.invoked|;
    if t.result.Ok? && plan.scrapeLast && n > 0 {
      assert t.result.value == procs(n - 1, t.invoked[n - 1]).stdout;
    }
  }

  /** A scraped schedule ends with the `publish` step. */
  lemma ScrapedStepIsPublish(inputs: ActionInputs, common: seq<string>)
    requires Schedule(inputs, common).scrapeLast
    ensures var steps := Schedule(inputs, common).steps; steps[|steps| - 1][0] == "publish"
  {
  }

  /** In `full`, a failing step stops the workflow: the steps after it are
      never started and nothing is scraped. */
  lemma FullStopsAtFailure(binary: string, inputs: ActionInputs, inherited: map<string, string>,
                           tempPath: string, procs: Processes, k: nat)
    requires Lower(inputs.command) == "full" && k < 5
    requires var steps := Schedule(inputs, CommonArgs(inputs, tempPath)).steps;
             var env := Environment(inputs, inherited);
             && (forall j :: 0 <= j < k ==> StepOutcome(procs, binary, env, inputs.workingDirectory, steps, j).Ok?)
             && StepOutcome(procs, binary, env, inputs.workingDirectory, steps, k).Err?
    ensures var r := RunReleasePilot(binary, inputs, inherited, tempPath, procs);
            |r.invoked| == k + 1 && r.invoked[k].args[0] == FullSequence[k] && r.outputs.Err?
  {
    var steps := Schedule(inputs, CommonArgs(inputs, tempPath)).steps;
    var env := Environment(inputs, inherited);
    FirstFailureStops(procs, binary, env, inputs.workingDirectory, steps, k);
  }

  /** A `full` run whose five steps all exit with 0 starts exactly the five
      steps in order and scrapes the standard output of `publish`. */
  lemma FullSuccessScrapesPublish(binary: string, inputs: ActionInputs, inherited: map<string, string>,
                                  tempPath: string, procs: Processes)
    requires Lower(inputs.command) == "full"
    requires var steps := Schedule(inputs, CommonArgs(inputs, tempPath)).steps;
             var env := Environment(inputs, inherited);
             forall j :: 0 <= j < 5 ==> StepOutcome(procs, binary, env, inputs.workingDirectory, steps, j).Ok?
    ensures var r := RunReleasePilot(binary, inputs, inherited, tempPath, procs);
            && |r.invoked| == 5
            && (forall k :: 0 <= k < 5 ==> r.invoked[k].args[0] == FullSequence[k])
            && r.outputs == Ok(ParsePublishOutput(
                 StepOutcome(procs, binary, Environment(inputs, inherited), inputs.workingDirectory,
                             Schedule(inputs, CommonArgs(inputs, tempPath)).steps, 4).value))
  {
    var steps := Schedule(inputs, CommonArgs(inputs, tempPath)).steps;
    AllStepsSucceed(procs, binary, Environment(inputs, inherited), inputs.workingDirectory, steps);
  }

  /** When every step exits with 0, every step is started and the run gives
      the last step's output. */
  lemma AllStepsSucceed(procs: Processes, binary: string, env: map<string, string>, cwd: string,
                        steps: seq<seq<string>>)
    requires forall j :: 0 <= j < |steps| ==> StepOutcome(procs, binary, env, cwd, steps, j).Ok?
    ensures var t := RunSteps(procs, binary, env, cwd, steps);
            t.result.Ok? && |t.invoked| == |steps|
  {
    var t := RunSteps(procs, binary, env, cwd, steps);
    var n := |t.invoked|;
    assert n > 0 ==> ExecuteCommand(procs(n - 1, t.invoked[n - 1]))
                     == StepOutcome(procs, binary, env, cwd, steps, n - 1);
  }
}

=== FILE: scraper.dfy ===
/** `parsePublishOutput` (src/runner.ts): three case-insensitive regular
    expressions, each applied once for its leftmost match, written here as
    dedicated scanners.

    Why a plain scanner is exact: every pattern starts with an alternation
    whose branches begin with different letters, so at most one branch can
    match at a given position; `\s*`, the optional `v`, `\d+` and `[^\s]+`
    are each followed by something their own character class excludes, so
    greedy matching never backtracks. Without the `u` flag, `/i` never maps a
    non-ASCII character to an ASCII one, so ASCII lower-casing decides it. */
module Scraper {
  import opened Wrappers
  import opened Text

  datatype ActionOutputs = ActionOutputs(
    version: Option<string>,
    releaseUrl: Option<string>,
    tagName: Option<string>,
    releaseId: Option<string>)

  const NoOutputs := ActionOutputs(None, None, None, None)

  /** `lit` (lower case) occurs at `i`, compared case-insensitively. */
  predicate LitAt(s: string, i: nat, lit: string)
    decreases |lit|
  {
    |lit| == 0 || (i < |s| && LowerChar(s[i]) == lit[0] && LitAt(s, i + 1, lit[1..]))
  }

  /** `s` starts with `lit` (lower case), compared case-insensitively. */
  predicate StartsWithFolded(s: string, lit: string) {
    |lit| <= |s| && forall m :: 0 <= m < |lit| ==> LowerChar(s[m]) == lit[m]
  }

  lemma {:induction false} LitAtBounds(s: string, i: nat, lit: string)
    requires LitAt(s, i, lit)
    ensures |lit| > 0 ==> i + |lit| <= |s|
    ensures forall k :: 0 <= k < |lit| ==> LowerChar(s[i + k]) == lit[k]
    decreases |lit|
  {
    if |lit| > 0 {
      LitAtBounds(s, i + 1, lit[1..]);
      forall k | 0 < k < |lit|
        ensures LowerChar(s[i + k]) == lit[k]
      {
        assert lit[1..][k - 1] == lit[k];
      }
    }
  }

  /** Length of the run of digits starting at `k`. */
  function DigitRun(s: string, k: nat): (n: nat)
    ensures k + n <= |s| || n == 0
    ensures k + n < |s| ==> !IsDigit(s[k + n])
    decreases |s| - k
  {
    if k < |s| && IsDigit(s[k]) then 1 + DigitRun(s, k + 1) else 0
  }

  /** Everything a digit run spans is a digit. */
  lemma {:induction false} DigitRunDigits(s: string, k: nat)
    ensures forall j :: k <= j < k + DigitRun(s, k) ==> IsDigit(s[j])
    decreases |s| - k
  {
    if k < |s| && IsDigit(s[k]) {
      DigitRunDigits(s, k + 1);
    }
  }

  /** Length of the run of white space starting at `k`. */
  function SpaceRun(s: string, k: nat): (n: nat)
    ensures k + n <= |s| || n == 0
    ensures forall j :: k <= j < k + n ==> IsSpace(s[j])
    ensures k + n < |s| ==> !IsSpace(s[k + n])
    decreases |s| - k
  {
    if k < |s| && IsSpace(s[k]) then 1 + SpaceRun(s, k + 1) else 0
  }

  /** Length of the run of non-white-space characters starting at `k`. */
  function WordRun(s: string, k: nat): (n: nat)
    ensures k + n <= |s| || n == 0
    ensures forall j :: k <= j < k + n ==> !IsSpace(s[j])
    ensures k + n < |s| ==> IsSpace(s[k + n])
    decreases |s| - k
  {
    if k < |s| && !IsSpace(s[k]) then 1 + WordRun(s, k + 1) else 0
  }

  /** `v` is three non-empty digit groups joined by two dots. */
  predicate IsSemVer(v: string) {
    exists p, q | 0 <= p < |v| && 0 <= q < |v| :: SemVerDots(v, p, q)
  }

  /** `v` is digits with dots exactly at `p` and `q`, and every group is
      non-empty. */
  predicate SemVerDots(v: string, p: int, q: int) {
    && 0 < p && p + 1 < q && q < |v| - 1
    && v[p] == '.' && v[q] == '.'
    && forall m :: 0 <= m < |v| && m != p && m != q ==> IsDigit(v[m])
  }

  /** End of the text just after one of the `keys` and a colon at `i`, if any
      key occurs there; the first key listed wins. `keys` lists the branches
      of the alternation, each with its colon. */
  function AfterKey(s: string, i: nat, keys: seq<string>): Option<nat> {
    if keys == [] then None
    else if LitAt(s, i, keys[0]) then Some(i + |keys[0]|)
    else AfterKey(s, i, keys[1..])
  }

  /** `AfterKey` finds a key exactly when one of the keys occurs at `i`, and
      then ends just after one that does. */
  lemma {:induction false} AfterKeyFinds(s: string, i: nat, keys: seq<string>)
    ensures AfterKey(s, i, keys).Some? ==>
              exists k :: 0 <= k < |keys| && LitAt(s, i, keys[k]) && AfterKey(s, i, keys).value == i + |keys[k]|
    ensures AfterKey(s, i, keys).None? <==> forall k :: 0 <= k < |keys| ==> !LitAt(s, i, keys[k])
  {
    if keys != [] && !LitAt(s, i, keys[0]) {
      AfterKeyFinds(s, i, keys[1..]);
      assert forall k :: 1 <= k < |keys| ==> keys[1..][k - 1] == keys[k];
    }
  }

  /** `\d+\.\d+\.\d+` at `k` (greedy); its end. */
  function SemVerEnd(s: string, k: nat): (r: Option<nat>)
    ensures r.Some? ==> k < r.value <= |s|
    ensures r.Some? ==> r.value == |s| || !IsDigit(s[r.value])
  {
    var a := DigitRun(s, k);
    if a == 0 || k + a >= |s| || s[k + a] != '.' then None
    else
      var b := DigitRun(s, k + a + 1);
      if b == 0 || k + a + 1 + b >= |s| || s[k + a + 1 + b] != '.' then None
      else
        var c := DigitRun(s, k + a + b + 2);
        if c == 0 then None
        else Some(k + a + b + 2 + c)
  }

  /** What `SemVerEnd` delimits is a version number. */
  lemma SemVerShape(s: string, k: nat)
    requires SemVerEnd(s, k).Some?
    ensures IsSemVer(s[k..SemVerEnd(s, k).value])
  {
    var a := DigitRun(s, k);
    var b := DigitRun(s, k + a + 1);
    var c := DigitRun(s, k + a + b + 2);
    var e := k + a + b + 2 + c;
    var v := s[k..e];
    DigitRunDigits(s, k);
    DigitRunDigits(s, k + a + 1);
    DigitRunDigits(s, k + a + b + 2);
    SliceDigits(s, k, e, 0, a);
    SliceDigits(s, k, e, a + 1, a + 1 + b);
    SliceDigits(s, k, e, a + b + 2, a + b + 2 + c);
    assert v[a] == s[k + a] && v[a + 1 + b] == s[k + a + 1 + b];
    assert SemVerDots(v, a, a + 1 + b);
  }

  /** Digits of `s` seen through the slice `s[k..e]`. */
  lemma SliceDigits(s: string, k: nat, e: nat, lo: nat, hi: nat)
    requires lo <= hi && k + hi <= e <= |s|
    requires forall j :: k + lo <= j < k + hi ==> IsDigit(s[j])
    ensures forall m :: lo <= m < hi ==> IsDigit(s[k..e][m])
  {
    forall m | lo <= m < hi
      ensures IsDigit(s[k..e][m])
    {
      assert s[k..e][m] == s[k + m];
    }
  }

  const VersionKeys: seq<string> := ["version:", "tag:"]
  const UrlKeys: seq<string> := ["release url:", "url:"]
  const IdKeys: seq<string> := ["release id:", "id:"]
  const GitHubPrefix := "https://github.com/"

  /** Where the value begins when one of `keys` occurs at `i`: after the key,
      its colon and any white space (`\s*`). */
  function ValueStart(s: string, i: nat, keys: seq<string>): Option<nat> {
    match AfterKey(s, i, keys)
    case None => None
    case Some(j) => Some(j + SpaceRun(s, j))
  }

  /** `(?:version|tag):\s*v?(\d+\.\d+\.\d+)` tried at `i`; the capture. */
  function VersionAt(s: string, i: nat): (r: Option<string>)
    ensures r.Some? ==> IsSemVer(r.value) && Contains(s, r.value)
  {
    match ValueStart(s, i, VersionKeys)
    case None => None
    case Some(k) => VersionFrom(s, SkipV(s, k))
  }

  /** The optional `v` (either case) before the version digits. */
  function SkipV(s: string, k: nat): (k': nat)
    ensures k' == k || (k' == k + 1 && k < |s| && LowerChar(s[k]) == 'v')
    ensures k < |s| && LowerChar(s[k]) == 'v' ==> k' == k + 1
  {
    if k < |s| && LowerChar(s[k]) == 'v' then k + 1 else k
  }

  /** `\d+\.\d+\.\d+` at `k`; the capture. */
  function VersionFrom(s: string, k: nat): (r: Option<string>)
    ensures r.Some? ==> IsSemVer(r.value) && Contains(s, r.value)
  {
    match SemVerEnd(s, k)
    case None => None
    case Some(e) =>
      SemVerShape(s, k);
      assert OccursAt(s, s[k..e], k);
      Some(s[k..e])
  }

  /** `(?:release url|url):\s*(https:\/\/github\.com\/[^\s]+)` tried at `i`. */
  function UrlAt(s: string, i: nat): (r: Option<string>)
    ensures r.Some? ==> |r.value| > |GitHubPrefix| && StartsWithFolded(r.value, GitHubPrefix)
    ensures r.Some? ==> NoSpace(r.value) && Contains(s, r.value)
  {
    match ValueStart(s, i, UrlKeys)
    case None => None
    case Some(k) => UrlFrom(s, k)
  }

  /** `https:\/\/github\.com\/[^\s]+` at `k`. */
  function UrlFrom(s: string, k: nat): (r: Option<string>)
    ensures r.Some? ==> |r.value| > |GitHubPrefix| && StartsWithFolded(r.value, GitHubPrefix)
    ensures r.Some? ==> NoSpace(r.value) && Contains(s, r.value)
  {
    GitHubPrefixFacts();
    PrefixedWord(s, k, GitHubPrefix)
  }

  lemma GitHubPrefixFacts()
    ensures NoSpace(GitHubPrefix)
    ensures forall m :: 0 <= m < |GitHubPrefix| ==> LowerChar(GitHubPrefix[m]) == GitHubPrefix[m]
  {
    var g := GitHubPrefix;
    forall m | 0 <= m < |g|
      ensures !IsSpace(g[m]) && LowerChar(g[m]) == g[m]
    {
      assert g[m] in "https:/githubcom.";
    }
  }

  /** `lit` (case-insensitively) followed by a non-empty run of
      non-white-space at `k`: the literal as written in `s` and the run. */
  function PrefixedWord(s: string, k: nat, lit: string): (r: Option<string>)
    ensures r.Some? ==> |r.value| > |lit| && StartsWithFolded(r.value, lit) && Contains(s, r.value)
    ensures r.Some? && NoSpace(lit) ==> NoSpace(r.value)
  {
    if !LitAt(s, k, lit) then None
    else
      var n := WordRun(s, k + |lit|);
      if n == 0 then None
      else
        LitCapture(s, k, lit, n);
        Some(s[k..k + |lit| + n])
  }

  /** A case-insensitive literal followed by a non-empty word forms a word
      that starts with the literal; it holds no white space when the literal
      holds none. */
  lemma LitCapture(s: string, k: nat, lit: string, n: nat)
    requires LitAt(s, k, lit)
    requires n == WordRun(s, k + |lit|) && n > 0
    ensures k + |lit| + n <= |s|
    ensures var u := s[k..k + |lit| + n];
      StartsWithFolded(u, lit) && Contains(s, u) && (NoSpace(lit) ==> NoSpace(u))
  {
    LitAtBounds(s, k, lit);
    var u := s[k..k + |lit| + n];
    assert OccursAt(s, u, k);
    forall m | 0 <= m < |lit|
      ensures LowerChar(u[m]) == lit[m]
    {
      assert u[m] == s[k + m];
    }
    if NoSpace(lit) {
      forall m | 0 <= m < |lit|
        ensures !IsSpace(u[m])
      {
        assert u[m] == s[k + m];
        assert LowerChar(s[k + m]) == lit[m];
        assert !IsSpace(lit[m]);
      }
      forall m | |lit| <= m < |u|
        ensures !IsSpace(u[m])
      {
        assert u[m] == s[k + m];
      }
    }
  }

  /** `(?:release id|id):\s*(\d+)` tried at `i`. */
  function IdAt(s: string, i: nat): (r: Option<string>)
    ensures r.Some? ==> r.value != "" && AllDigits(r.value) && Contains(s, r.value)
  {
    match ValueStart(s, i, IdKeys)
    case None => None
    case Some(k) => IdFrom(s, k)
  }

  /** `\d+` at `k`. */
  function IdFrom(s: string, k: nat): (r: Option<string>)
    ensures r.Some? ==> r.value != "" && AllDigits(r.value) && Contains(s, r.value)
  {
    var n := DigitRun(s, k);
    if n == 0 then None
    else
      DigitRunDigits(s, k);
      assert OccursAt(s, s[k..k + n], k);
      Some(s[k..k + n])
  }

  /** The leftmost position at or after `i` where `at` matches, as
      `String.prototype.match` scans for a non-global pattern. */
  function Leftmost(s: string, i: nat, at: (string, nat) -> Option<string>): (r: Option<nat>)
    ensures r.Some? ==> i <= r.value <= |s| && at(s, r.value).Some?
    ensures r.Some? ==> forall j :: i <= j < r.value ==> at(s, j).None?
    ensures r.None? <==> forall j :: i <= j <= |s| ==> at(s, j).None?
    decreases |s| + 1 - i
  {
    if i > |s| then None
    else if at(s, i).Some? then Some(i)
    else Leftmost(s, i + 1, at)
  }

  /** The capture of the leftmost match, or `None` when nothing matches. */
  function FirstMatch(s: string, at: (string, nat) -> Option<string>): (r: Option<string>)
    ensures r.Some? ==> exists i :: 0 <= i <= |s| && at(s, i) == r && forall j :: 0 <= j < i ==> at(s, j).None?
    ensures r.None? <==> forall j :: 0 <= j <= |s| ==> at(s, j).None?
  {
    match Leftmost(s, 0, at)
    case None => None
    case Some(i) => at(s, i)
  }

  /** The version pattern's leftmost capture. */
  function ScrapeVersion(s: string): (r: Option<string>)
    ensures r.Some? ==> IsSemVer(r.value) && Contains(s, r.value)
    ensures r.None? <==> forall j :: 0 <= j <= |s| ==> VersionAt(s, j).None?
    ensures r.Some? ==> exists i :: 0 <= i <= |s| && VersionAt(s, i) == r && forall j :: 0 <= j < i ==> VersionAt(s, j).None?
  {
    FirstMatch(s, VersionAt)
  }

  /** The release-URL pattern's leftmost capture. */
  function ScrapeUrl(s: string): (r: Option<string>)
    ensures r.Some? ==> |r.value| > |GitHubPrefix| && StartsWithFolded(r.value, GitHubPrefix)
    ensures r.Some? ==> NoSpace(r.value) && Contains(s, r.value)
    ensures r.None? <==> forall j :: 0 <= j <= |s| ==> UrlAt(s, j).None?
    ensures r.Some? ==> exists i :: 0 <= i <= |s| && UrlAt(s, i) == r && forall j :: 0 <= j < i ==> UrlAt(s, j).None?
  {
    FirstMatch(s, UrlAt)
  }

  /** The release-id pattern's leftmost capture. */
  function ScrapeId(s: string): (r: Option<string>)
    ensures r.Some? ==> r.value != "" && AllDigits(r.value) && Contains(s, r.value)
    ensures r.None? <==> forall j :: 0 <= j <= |s| ==> IdAt(s, j).None?
    ensures r.Some? ==> exists i :: 0 <= i <= |s| && IdAt(s, i) == r && forall j :: 0 <= j < i ==> IdAt(s, j).None?
  {
    FirstMatch(s, IdAt)
  }

  /** `parsePublishOutput`: each field is scraped independently and is left
      unset when its pattern matches nowhere; the tag is always `v` followed
      by the version, and the two are set together. */
  function ParsePublishOutput(s: string): (o: ActionOutputs)
    ensures o.version.Some? <==> o.tagName.Some?
    ensures o.version.Some? ==> IsSemVer(o.version.value) && o.tagName.value == "v" + o.version.value
    ensures o.releaseUrl.Some? ==>
              && |o.releaseUrl.value| > |GitHubPrefix|
              && StartsWithFolded(o.releaseUrl.value, GitHubPrefix)
              && NoSpace(o.releaseUrl.value)
    ensures o.releaseId.Some? ==> o.releaseId.value != "" && AllDigits(o.releaseId.value)
    ensures o.version.None? <==> forall j :: 0 <= j <= |s| ==> VersionAt(s, j).None?
    ensures o.releaseUrl.None? <==> forall j :: 0 <= j <= |s| ==> UrlAt(s, j).None?
    ensures o.releaseId.None? <==> forall j :: 0 <= j <= |s| ==> IdAt(s, j).None?
    ensures o.version.Some? ==>
              exists i :: 0 <= i <= |s| && VersionAt(s, i) == o.version && forall j :: 0 <= j < i ==> VersionAt(s, j).None?
    ensures o.releaseUrl.Some? ==>
              exists i :: 0 <= i <= |s| && UrlAt(s, i) == o.releaseUrl && forall j :: 0 <= j < i ==> UrlAt(s, j).None?
    ensures o.releaseId.Some? ==>
              exists i :: 0 <= i <= |s| && IdAt(s, i) == o.releaseId && forall j :: 0 <= j < i ==> IdAt(s, j).None?
    ensures o.version.Some? ==> Contains(s, o.version.value)
    ensures o.releaseUrl.Some? ==> Contains(s, o.releaseUrl.value)
    ensures o.releaseId.Some? ==> Contains(s, o.releaseId.value)
  {
    var version := ScrapeVersion(s);
    var url := ScrapeUrl(s);
    var id := ScrapeId(s);
    ActionOutputs(
      version,
      url,
      if version.Some? then Some("v" + version.value) else None,
      id)
  }

  // Round trips: a line printed the way the release tool reports a field is
  // scraped back to exactly that field.

  /** A digit run is measured exactly. */
  lemma {:induction false} DigitRunOf(s: string, k: nat, n: nat)
    requires k + n <= |s|
    requires forall j :: k <= j < k + n ==> IsDigit(s[j])
    requires k + n == |s| || !IsDigit(s[k + n])
    ensures DigitRun(s, k) == n
    decreases n
  {
    if n > 0 {
      DigitRunOf(s, k + 1, n - 1);
    }
  }

  lemma {:induction false} WordRunOf(s: string, k: nat, n: nat)
    requires k + n <= |s|
    requires forall j :: k <= j < k + n ==> !IsSpace(s[j])
    requires k + n == |s| || IsSpace(s[k + n])
    ensures WordRun(s, k) == n
    decreases n
  {
    if n > 0 {
      WordRunOf(s, k + 1, n - 1);
    }
  }

  lemma {:induction false} LitAtOf(s: string, i: nat, lit: string)
    requires i + |lit| <= |s|
    requires forall m :: 0 <= m < |lit| ==> LowerChar(s[i + m]) == lit[m]
    ensures LitAt(s, i, lit)
    decreases |lit|
  {
    if |lit| > 0 {
      forall m | 0 <= m < |lit| - 1
        ensures LowerChar(s[i + 1 + m]) == lit[1..][m]
      {
        assert LowerChar(s[i + (m + 1)]) == lit[m + 1];
      }
      LitAtOf(s, i + 1, lit[1..]);
    }
  }

  /** A key printed at the start of the text is found there, whatever its case. */
  lemma KeyAt(s: string, head: string, key: string)
    requires |key| <= |head| && head <= s
    requires forall m :: 0 <= m < |key| ==> LowerChar(head[m]) == key[m]
    ensures LitAt(s, 0, key)
  {
    LitAtOf(s, 0, key);
  }

  /** One space after the key: the value starts right after it. */
  lemma ValueStartOf(s: string, keys: seq<string>, j: nat)
    requires AfterKey(s, 0, keys) == Some(j)
    requires j + 1 < |s| && s[j] == ' ' && !IsSpace(s[j + 1])
    ensures ValueStart(s, 0, keys) == Some(j + 1)
  {
    assert SpaceRun(s, j + 1) == 0;
  }

  /** The pattern matching at the very start is the leftmost match. */
  lemma FirstMatchAtStart(s: string, at: (string, nat) -> Option<string>)
    requires at(s, 0).Some?
    ensures FirstMatch(s, at) == at(s, 0)
  {
    assert Leftmost(s, 0, at) == Some(0);
  }

  /** The line the release tool prints for the tag it created. */
  function TagLine(a: string, b: string, c: string, rest: string): string {
    "Tag: v" + a + "." + b + "." + c + rest
  }

  /** `Tag: v<a>.<b>.<c>` at the start of the output yields version
      `<a>.<b>.<c>` and tag `v<a>.<b>.<c>`. */
  lemma VersionRoundTrip(a: string, b: string, c: string, rest: string)
    requires a != "" && b != "" && c != "" && AllDigits(a) && AllDigits(b) && AllDigits(c)
    requires rest == "" || !IsDigit(rest[0])
    ensures var v := a + "." + b + "." + c;
      var o := ParsePublishOutput(TagLine(a, b, c, rest));
      o.version == Some(v) && o.tagName == Some("v" + v)
  {
    VersionAtTag(a, b, c, rest);
    ParsedVersionAtStart(TagLine(a, b, c, rest));
  }

  lemma ParsedVersionAtStart(s: string)
    requires VersionAt(s, 0).Some?
    ensures ParsePublishOutput(s).version == VersionAt(s, 0)
    ensures ParsePublishOutput(s).tagName == Some("v" + VersionAt(s, 0).value)
  {
    FirstMatchAtStart(s, VersionAt);
    assert ScrapeVersion(s) == VersionAt(s, 0);
  }

  lemma VersionAtTag(a: string, b: string, c: string, rest: string)
    requires a != "" && b != "" && c != "" && AllDigits(a) && AllDigits(b) && AllDigits(c)
    requires rest == "" || !IsDigit(rest[0])
    ensures VersionAt(TagLine(a, b, c, rest), 0) == Some(a + "." + b + "." + c)
  {
    TagVersionStart(a, b, c, rest);
    TagVersionFrom(a, b, c, rest);
    TagSlice(a, b, c, rest);
  }

  lemma TagVersionStart(a: string, b: string, c: string, rest: string)
    ensures VersionAt(TagLine(a, b, c, rest), 0) == VersionFrom(TagLine(a, b, c, rest), 6)
  {
    TagKeyAt(a, b, c, rest);
    VersionAtFromSix(TagLine(a, b, c, rest));
  }

  lemma TagVersionFrom(a: string, b: string, c: string, rest: string)
    requires a != "" && b != "" && c != "" && AllDigits(a) && AllDigits(b) && AllDigits(c)
    requires rest == "" || !IsDigit(rest[0])
    ensures 8 + |a| + |b| + |c| <= |TagLine(a, b, c, rest)|
    ensures VersionFrom(TagLine(a, b, c, rest), 6) == Some(TagLine(a, b, c, rest)[6..8 + |a| + |b| + |c|])
  {
    TagSemVer(a, b, c, rest);
    VersionFromOf(TagLine(a, b, c, rest), 8 + |a| + |b| + |c|);
  }

  lemma VersionAtFromSix(s: string)
    requires ValueStart(s, 0, VersionKeys) == Some(5) && 5 < |s| && s[5] == 'v'
    ensures VersionAt(s, 0) == VersionFrom(s, 6)
  {
    assert SkipV(s, 5) == 6;
  }

  lemma VersionFromOf(s: string, e: nat)
    requires SemVerEnd(s, 6) == Some(e)
    ensures VersionFrom(s, 6) == Some(s[6..e])
  {
  }

  lemma TagKeyAt(a: string, b: string, c: string, rest: string)
    ensures ValueStart(TagLine(a, b, c, rest), 0, VersionKeys) == Some(5)
    ensures 5 < |TagLine(a, b, c, rest)| && TagLine(a, b, c, rest)[5] == 'v'
  {
    TagKeyFound(a, b, c, rest);
    TagSpace(a, b, c, rest);
    ValueStartOf(TagLine(a, b, c, rest), VersionKeys, 4);
  }

  lemma TagKeyFound(a: string, b: string, c: string, rest: string)
    ensures AfterKey(TagLine(a, b, c, rest), 0, VersionKeys) == Some(4)
  {
    var s := TagLine(a, b, c, rest);
    var h := "Tag: v";
    assert s == h + (a + "." + b + "." + c + rest);
    KeyAt(s, h, "tag:");
    assert LowerChar(s[0]) != 'v';
    assert !LitAt(s, 0, "version:");
    assert VersionKeys[1..] == ["tag:"];
  }

  lemma TagSpace(a: string, b: string, c: string, rest: string)
    ensures var s := TagLine(a, b, c, rest);
      5 < |s| && s[4] == ' ' && s[5] == 'v' && !IsSpace(s[5])
  {
    var s := TagLine(a, b, c, rest);
    assert s == "Tag: v" + (a + "." + b + "." + c + rest);
  }

  lemma TagSemVer(a: string, b: string, c: string, rest: string)
    requires a != "" && b != "" && c != "" && AllDigits(a) && AllDigits(b) && AllDigits(c)
    requires rest == "" || !IsDigit(rest[0])
    ensures SemVerEnd(TagLine(a, b, c, rest), 6) == Some(8 + |a| + |b| + |c|)
  {
    TagVersion(a, b, c, rest);
    SemVerEndOf(TagLine(a, b, c, rest), |a|, |b|, |c|);
  }

  lemma TagVersion(a: string, b: string, c: string, rest: string)
    requires a != "" && b != "" && c != "" && AllDigits(a) && AllDigits(b) && AllDigits(c)
    requires rest == "" || !IsDigit(rest[0])
    ensures var s := TagLine(a, b, c, rest);
      && 8 + |a| + |b| + |c| <= |s|
      && DigitRun(s, 6) == |a| && s[6 + |a|] == '.'
      && DigitRun(s, 7 + |a|) == |b| && s[7 + |a| + |b|] == '.'
      && DigitRun(s, 8 + |a| + |b|) == |c|
  {
    TagMajor(a, b, c, rest);
    TagMinor(a, b, c, rest);
    TagPatch(a, b, c, rest);
  }

  lemma TagMajor(a: string, b: string, c: string, rest: string)
    requires AllDigits(a)
    ensures var s := TagLine(a, b, c, rest);
      6 + |a| < |s| && DigitRun(s, 6) == |a| && s[6 + |a|] == '.'
  {
    var s := TagLine(a, b, c, rest);
    assert s == "Tag: v" + a + ("." + b + "." + c + rest);
    DigitsBetween(s, "Tag: v", a, "." + b + "." + c + rest);
  }

  lemma TagMinor(a: string, b: string, c: string, rest: string)
    requires AllDigits(b)
    ensures var s := TagLine(a, b, c, rest);
      7 + |a| + |b| < |s| && DigitRun(s, 7 + |a|) == |b| && s[7 + |a| + |b|] == '.'
  {
    var s := TagLine(a, b, c, rest);
    assert s == ("Tag: v" + a + ".") + b + ("." + c + rest);
    DigitsBetween(s, "Tag: v" + a + ".", b, "." + c + rest);
  }

  lemma TagPatch(a: string, b: string, c: string, rest: string)
    requires AllDigits(c)
    requires rest == "" || !IsDigit(rest[0])
    ensures var s := TagLine(a, b, c, rest);
      8 + |a| + |b| + |c| <= |s| && DigitRun(s, 8 + |a| + |b|) == |c|
  {
    var s := TagLine(a, b, c, rest);
    assert s == ("Tag: v" + a + "." + b + ".") + c + rest;
    DigitsBetween(s, "Tag: v" + a + "." + b + ".", c, rest);
  }

  lemma TagSlice(a: string, b: string, c: string, rest: string)
    ensures var s := TagLine(a, b, c, rest);
      && 8 + |a| + |b| + |c| <= |s|
      && s[6..8 + |a| + |b| + |c|] == a + "." + b + "." + c
  {
    var s := TagLine(a, b, c, rest);
    assert s == "Tag: v" + (a + "." + b + "." + c) + rest;
  }

  lemma SemVerEndOf(s: string, a: nat, b: nat, c: nat)
    requires a > 0 && b > 0 && c > 0 && 8 + a + b + c <= |s|
    requires DigitRun(s, 6) == a && s[6 + a] == '.'
    requires DigitRun(s, 7 + a) == b && s[7 + a + b] == '.'
    requires DigitRun(s, 8 + a + b) == c
    ensures SemVerEnd(s, 6) == Some(8 + a + b + c)
  {
  }

  /** A run of digits printed between two pieces of text is measured exactly. */
  lemma DigitsBetween(s: string, before: string, d: string, after: string)
    requires s == before + d + after
    requires AllDigits(d) && (after == "" || !IsDigit(after[0]))
    ensures |before| + |d| <= |s| && DigitRun(s, |before|) == |d|
    ensures |before| + |d| < |s| ==> s[|before| + |d|] == after[0]
  {
    assert forall j :: |before| <= j < |before| + |d| ==> s[j] == d[j - |before|];
    assert |before| + |d| == |s| || s[|before| + |d|] == after[0];
    DigitRunOf(s, |before|, |d|);
  }

  /** The line the release tool prints for the release's URL. */
  function UrlLine(path: string, rest: string): string {
    "Release URL: " + GitHubPrefix + path + rest
  }

  /** `Release URL: https://github.com/<path>` at the start of the output
      yields that URL. */
  lemma UrlRoundTrip(path: string, rest: string)
    requires path != "" && NoSpace(path)
    requires rest == "" || IsSpace(rest[0])
    ensures ParsePublishOutput(UrlLine(path, rest)).releaseUrl == Some(GitHubPrefix + path)
  {
    var s := UrlLine(path, rest);
    UrlKeyAt(path, rest);
    UrlPrefixAt(path, rest);
    UrlPath(path, rest);
    UrlAtFrom(s, 13);
    UrlFromOf(s, |path|);
    ParsedUrlAtStart(s);
  }

  lemma ParsedUrlAtStart(s: string)
    requires UrlAt(s, 0).Some?
    ensures ParsePublishOutput(s).releaseUrl == UrlAt(s, 0)
  {
    FirstMatchAtStart(s, UrlAt);
    assert ScrapeUrl(s) == UrlAt(s, 0);
  }

  lemma UrlAtFrom(s: string, k: nat)
    requires ValueStart(s, 0, UrlKeys) == Some(k)
    ensures UrlAt(s, 0) == UrlFrom(s, k)
  {
  }

  lemma UrlFromOf(s: string, n: nat)
    requires LitAt(s, 13, GitHubPrefix)
    requires WordRun(s, 13 + |GitHubPrefix|) == n > 0
    ensures UrlFrom(s, 13) == Some(s[13..13 + |GitHubPrefix| + n])
  {
    assert PrefixedWord(s, 13, GitHubPrefix) == Some(s[13..13 + |GitHubPrefix| + n]);
  }

  lemma UrlKeyAt(path: string, rest: string)
    ensures ValueStart(UrlLine(path, rest), 0, UrlKeys) == Some(13)
  {
    UrlKeyFound(path, rest);
    UrlSpace(path, rest);
    ValueStartOf(UrlLine(path, rest), UrlKeys, 12);
  }

  lemma UrlKeyFound(path: string, rest: string)
    ensures AfterKey(UrlLine(path, rest), 0, UrlKeys) == Some(12)
  {
    var s := UrlLine(path, rest);
    var h := "Release URL: ";
    assert s == h + (GitHubPrefix + path + rest);
    KeyAt(s, h, "release url:");
  }

  lemma UrlSpace(path: string, rest: string)
    ensures var s := UrlLine(path, rest);
      13 < |s| && s[12] == ' ' && !IsSpace(s[13])
  {
    var s := UrlLine(path, rest);
    assert s == "Release URL: " + (GitHubPrefix + path + rest);
    assert s[13] == 'h';
  }

  lemma UrlPrefixAt(path: string, rest: string)
    ensures LitAt(UrlLine(path, rest), 13, GitHubPrefix)
  {
    var s := UrlLine(path, rest);
    GitHubPrefixFacts();
    var g := GitHubPrefix;
    forall m | 0 <= m < |g|
      ensures LowerChar(s[13 + m]) == g[m]
    {
      assert s[13 + m] == g[m];
    }
    LitAtOf(s, 13, g);
  }

  lemma UrlPath(path: string, rest: string)
    requires path != "" && NoSpace(path)
    requires rest == "" || IsSpace(rest[0])
    ensures WordRun(UrlLine(path, rest), 13 + |GitHubPrefix|) == |path|
    ensures UrlLine(path, rest)[13..13 + |GitHubPrefix| + |path|] == GitHubPrefix + path
  {
    var s := UrlLine(path, rest);
    var g := |GitHubPrefix|;
    assert forall j :: 13 + g <= j < 13 + g + |path| ==> s[j] == path[j - 13 - g];
    assert 13 + g + |path| == |s| || s[13 + g + |path|] == rest[0];
    WordRunOf(s, 13 + g, |path|);
    assert s[13..13 + g + |path|] == GitHubPrefix + path;
  }

  /** The line the release tool prints for the release's identifier. */
  function IdLine(id: string, rest: string): string {
    "Release ID: " + id + rest
  }

  /** `Release ID: <digits>` at the start of the output yields those digits. */
  lemma IdRoundTrip(id: string, rest: string)
    requires id != "" && AllDigits(id)
    requires rest == "" || !IsDigit(rest[0])
    ensures ParsePublishOutput(IdLine(id, rest)).releaseId == Some(id)
  {
    var s := IdLine(id, rest);
    IdKeyAt(id, rest);
    IdDigits(id, rest);
    IdAtFrom(s, 12);
    IdFromOf(s, |id|);
    ParsedIdAtStart(s);
  }

  lemma ParsedIdAtStart(s: string)
    requires IdAt(s, 0).Some?
    ensures ParsePublishOutput(s).releaseId == IdAt(s, 0)
  {
    FirstMatchAtStart(s, IdAt);
    assert ScrapeId(s) == IdAt(s, 0);
  }

  lemma IdAtFrom(s: string, k: nat)
    requires ValueStart(s, 0, IdKeys) == Some(k)
    ensures IdAt(s, 0) == IdFrom(s, k)
  {
  }

  lemma IdFromOf(s: string, n: nat)
    requires 12 + n <= |s| && DigitRun(s, 12) == n > 0
    ensures IdFrom(s, 12) == Some(s[12..12 + n])
  {
  }

  lemma IdKeyAt(id: string, rest: string)
    requires id != "" && !IsSpace(id[0])
    ensures ValueStart(IdLine(id, rest), 0, IdKeys) == Some(12)
  {
    IdKeyFound(id, rest);
    IdSpace(id, rest);
    ValueStartOf(IdLine(id, rest), IdKeys, 11);
  }

  lemma IdKeyFound(id: string, rest: string)
    ensures AfterKey(IdLine(id, rest), 0, IdKeys) == Some(11)
  {
    var s := IdLine(id, rest);
    var h := "Release ID: ";
    assert s == h + (id + rest);
    KeyAt(s, h, "release id:");
  }

  lemma IdSpace(id: string, rest: string)
    requires id != "" && !IsSpace(id[0])
    ensures var s := IdLine(id, rest);
      12 < |s| && s[11] == ' ' && !IsSpace(s[12])
  {
    var s := IdLine(id, rest);
    assert s == "Release ID: " + (id + rest);
    assert s[12] == id[0];
  }

  lemma IdDigits(id: string, rest: string)
    requires id != "" && AllDigits(id)
    requires rest == "" || !IsDigit(rest[0])
    ensures var s := IdLine(id, rest);
      && 12 + |id| <= |s| && DigitRun(s, 12) == |id| && s[12..12 + |id|] == id
  {
    var s := IdLine(id, rest);
    assert s == "Release ID: " + id + rest;
    DigitsBetween(s, "Release ID: ", id, rest);
    assert s[12..12 + |id|] == id;
  }
}

=== FILE: seqs.dfy ===
/** Linear search in listing order, the shape of every `for … of` loop with
    an early `return` or `break` in the action. */
module Seqs {
  import opened Wrappers

  /** Index of the first element satisfying `p`, if any. */
  function FirstIndex<T>(s: seq<T>, p: T -> bool): (r: Option<nat>)
    ensures r.Some? ==> r.value < |s| && p(s[r.value])
    ensures r.Some? ==> forall j :: 0 <= j < r.value ==> !p(s[j])
    ensures r.None? <==> forall j :: 0 <= j < |s| ==> !p(s[j])
  {
    if s == [] then None
    else if p(s[0]) then Some(0)
    else
      match FirstIndex(s[1..], p)
      case None => None
      case Some(i) => Some(i + 1)
  }
}

=== FILE: text.dfy ===
/** The JavaScript string primitives the action relies on, over `seq<char>`:
    `trim`, `split` on a character and on `/\s+/`, `toLowerCase` (ASCII),
    `startsWith`, `endsWith` and `includes`. */
module Text {

  /** The characters JavaScript's `\s` and `String.prototype.trim` treat as
      white space (WhiteSpace and LineTerminator of ECMA-262). */
  predicate IsSpace(c: char) {
    || c == ' ' || c == '\t' || c == '\n' || c == '\U{000B}' || c == '\U{000C}' || c == '\r'
    || c == '\U{00A0}' || c == '\U{1680}' || ('\U{2000}' <= c <= '\U{200A}')
    || c == '\U{2028}' || c == '\U{2029}' || c == '\U{202F}' || c == '\U{205F}'
    || c == '\U{3000}' || c == '\U{FEFF}'
  }

  /** `\d` without the `u` flag: ASCII digits only. */
  predicate IsDigit(c: char) {
    '0' <= c <= '9'
  }

  predicate NoSpace(s: string) {
    forall k :: 0 <= k < |s| ==> !IsSpace(s[k])
  }

  predicate AllDigits(s: string) {
    forall k :: 0 <= k < |s| ==> IsDigit(s[k])
  }

  /** ASCII lower-casing of one character; every other character is kept. */
  function LowerChar(c: char): char {
    if 'A' <= c <= 'Z' then (c as int + 32) as char else c
  }

  function Lower(s: string): (r: string)
    ensures |r| == |s|
    ensures forall k :: 0 <= k < |s| ==> r[k] == LowerChar(s[k])
  {
    seq(|s|, k requires 0 <= k < |s| => LowerChar(s[k]))
  }

  predicate StartsWith(s: string, prefix: string) {
    |prefix| <= |s| && s[..|prefix|] == prefix
  }

  predicate EndsWith(s: string, suffix: string) {
    |suffix| <= |s| && s[|s| - |suffix|..] == suffix
  }

  predicate OccursAt(s: string, part: string, i: nat) {
    i + |part| <= |s| && s[i..i + |part|] == part
  }

  /** `String.prototype.includes`. */
  predicate Contains(s: string, part: string) {
    exists i: nat | i <= |s| :: OccursAt(s, part, i)
  }

  lemma PrefixContained(prefix: string, rest: string)
    ensures Contains(prefix + rest, prefix)
  {
    assert OccursAt(prefix + rest, prefix, 0);
  }

  /** `s` with its leading white space removed (`trimStart`). */
  function TrimStart(s: string): (r: string)
    ensures |r| <= |s| && r == s[|s| - |r|..]
    ensures r == [] || !IsSpace(r[0])
    ensures forall k :: 0 <= k < |s| - |r| ==> IsSpace(s[k])
  {
    if s == [] || !IsSpace(s[0]) then s
    else
      var r := TrimStart(s[1..]);
      assert s[1..][|s| - 1 - |r|..] == s[|s| - |r|..];
      r
  }

  /** `s` with its trailing white space removed (`trimEnd`). */
  function TrimEnd(s: string): (r: string)
    ensures |r| <= |s| && r == s[..|r|]
    ensures r == [] || !IsSpace(r[|r| - 1])
    ensures forall k :: |r| <= k < |s| ==> IsSpace(s[k])
  {
    if s == [] || !IsSpace(s[|s| - 1]) then s
    else
      var r := TrimEnd(s[..|s| - 1]);
      assert s[..|s| - 1][..|r|] == s[..|r|];
      r
  }

  /** `String.prototype.trim`: the longest infix of `s` that neither starts
      nor ends with white space, obtained by removing white space only. */
  function Trim(s: string): (r: string)
    ensures r == [] || (!IsSpace(r[0]) && !IsSpace(r[|r| - 1]))
  {
    TrimEnd(TrimStart(s))
  }

  /** `s.split(c)` for a single-character separator: the pieces between the
      occurrences of `c`, in order; an empty `s` gives one empty piece. */
  function Split(s: string, c: char): (parts: seq<string>)
    ensures |parts| >= 1
    ensures forall i :: 0 <= i < |parts| ==> c !in parts[i]
  {
    if s == [] then [""]
    else if s[0] == c then [""] + Split(s[1..], c)
    else
      var rest := Split(s[1..], c);
      [[s[0]] + rest[0]] + rest[1..]
  }

  /** `parts.join(c)`. */
  function Join(parts: seq<string>, c: char): string
    requires |parts| >= 1
  {
    if |parts| == 1 then parts[0] else parts[0] + [c] + Join(parts[1..], c)
  }

  /** Splitting and joining again gives back the original string. */
  lemma {:induction false} JoinSplit(s: string, c: char)
    ensures Join(Split(s, c), c) == s
  {
    if s == [] {
    } else if s[0] == c {
      JoinSplit(s[1..], c);
      assert Split(s, c)[1..] == Split(s[1..], c);
    } else {
      var rest := Split(s[1..], c);
      JoinSplit(s[1..], c);
      if |rest| == 1 {
      } else {
        assert Split(s, c)[1..] == rest[1..];
        assert Join(rest, c) == rest[0] + [c] + Join(rest[1..], c);
      }
    }
  }

  /** Joining pieces free of the separator and splitting again gives back the pieces. */
  lemma {:induction false} SplitJoin(parts: seq<string>, c: char)
    requires |parts| >= 1
    requires forall i :: 0 <= i < |parts| ==> c !in parts[i]
    ensures Split(Join(parts, c), c) == parts
  {
    if |parts| == 1 {
      SplitNoSeparator(parts[0], c);
    } else {
      SplitJoin(parts[1..], c);
      SplitAfterPiece(parts[0], Join(parts[1..], c), c);
      assert [parts[0]] + parts[1..] == parts;
    }
  }

  lemma {:induction false} SplitNoSeparator(s: string, c: char)
    requires c !in s
    ensures Split(s, c) == [s]
  {
    if s != [] {
      assert c !in s[1..];
      SplitNoSeparator(s[1..], c);
      assert [s[0]] + s[1..] == s;
    }
  }

  lemma {:induction false} SplitAfterPiece(piece: string, rest: string, c: char)
    requires c !in piece
    ensures Split(piece + [c] + rest, c) == [piece] + Split(rest, c)
  {
    var s := piece + [c] + rest;
    if piece == [] {
      assert s[1..] == rest;
    } else {
      assert s[1..] == piece[1..] + [c] + rest;
      assert c !in piece[1..];
      SplitAfterPiece(piece[1..], rest, c);
      assert [s[0]] + piece[1..] == piece;
    }
  }

  /** `t.split(/\s+/)`: the pieces between maximal runs of white space, in
      order; a leading run yields an empty first piece and a trailing run an
      empty last piece, exactly as the regular-expression split does. */
  function SplitRuns(t: string): (parts: seq<string>)
    ensures |parts| >= 1
    ensures forall i :: 0 <= i < |parts| ==> NoSpace(parts[i])
    ensures t != [] && !IsSpace(t[0]) ==> parts[0] != [] && parts[0][0] == t[0]
    decreases |t|
  {
    if t == [] then [""]
    else if IsSpace(t[0]) then [""] + SplitRuns(TrimStart(t))
    else
      var rest := SplitRuns(t[1..]);
      [[t[0]] + rest[0]] + rest[1..]
  }

  /** The whitespace-separated fields of a line, as `line.trim().split(/\s+/)`. */
  function Fields(line: string): (fs: seq<string>)
    ensures |fs| >= 1
    ensures |fs| >= 2 ==> forall i :: 0 <= i < |fs| ==> fs[i] != [] && NoSpace(fs[i])
  {
    var t := Trim(line);
    var fs := SplitRuns(t);
    if |fs| >= 2 then
      TrimmedRunsNonEmpty(t);
      fs
    else fs
  }

  /** Splitting a trimmed non-empty string on white-space runs never yields an
      empty piece. */
  lemma {:induction false} TrimmedRunsNonEmpty(t: string)
    requires t == [] || (!IsSpace(t[0]) && !IsSpace(t[|t| - 1]))
    ensures |SplitRuns(t)| >= 2 ==> forall i :: 0 <= i < |SplitRuns(t)| ==> SplitRuns(t)[i] != []
  {
    if t != [] {
      RunsNonEmptyFrom(t);
    }
  }

  lemma {:induction false} RunsNonEmptyFrom(t: string)
    requires t != [] && !IsSpace(t[|t| - 1])
    ensures forall i :: 0 < i < |SplitRuns(t)| ==> SplitRuns(t)[i] != []
    ensures !IsSpace(t[0]) ==> SplitRuns(t)[0] != []
    decreases |t|
  {
    var parts := SplitRuns(t);
    if IsSpace(t[0]) {
      var u := TrimStart(t);
      assert u != [] by {
        assert !IsSpace(t[|t| - 1]);
      }
      assert u[|u| - 1] == t[|t| - 1];
      RunsNonEmptyFrom(u);
      assert parts == [""] + SplitRuns(u);
    } else if |t| == 1 {
      assert t[1..] == [];
    } else {
      assert t[1..][|t| - 2] == t[|t| - 1];
      RunsNonEmptyFrom(t[1..]);
    }
  }
}

=== FILE: wrappers.dfy ===
/** Failure-carrying datatypes shared by the whole model. A JavaScript `throw`
    becomes an `Err` carrying the error message; `undefined`/`null` becomes `None`. */
module Wrappers {

  datatype Option<+T> = None | Some(value: T)

  datatype Result<+T, +E> = Ok(value: T) | Err(error: E)
}
